=== FILE: README.md ===
# HFC data correction: a verified model of the correction session

The HFC Data Correction app is a Streamlit page. Field enumerators use it to
correct survey errors. Two error tables are loaded:

- `constraints.csv`: a reported value broke a free-text rule such as "max 500";
- `logic.csv`: a reported value disagrees with the Troster system value.

The enumerator picks their username. The page then lists every farmer who still
has an unresolved error, with the farmer's name and phone. Each error gets a
number input and an explanation box. One "Save All Corrections" button counts
the pending entries that have an explanation and compares that count with the
number of outstanding errors. When they match, it writes one correction record per pending
entry and marks those errors resolved.

This project models the logic behind that page, all of it in `app.py`:

- `text.dfy` (module `Text`): the Python string behaviour the app depends on.
  This covers `lower()`, the `in` substring test, `strip()`,
  `re.findall(r'\d+', ...)`, `int()` on text and `str()` on integers.
- `seqs.dfy` (module `Seqs`): pandas boolean-mask row selection, and
  `sorted(set(...))` on integer ids.
- `tables.dfy` (module `Tables`): error rows and their error keys
  `constraint_{unique_id}_{variable}` / `logic_{unique_id}_{variable}`.
  It also holds the enumerator's outstanding rows, the sorted farmer list and
  the name and phone shown for a farmer.
- `bounds.dfy` (module `Bounds`):
  - the bounds read from a constraint rule;
  - the reported value clamped into those bounds;
  - the range, default and difference of a logic input.
- `session.dfy` (module `Session`): the session state as a class,
  `CorrectionSession`.
  - `correctedErrors` is the resolved-key set.
  - `allCorrectionsData` is the pending dict. It keeps Python's insertion
    order as `order`, next to a `map` of `entries`.
  - `Render` is the render pass that fills the dict from the inputs.
  - `ValidateAll` is `validate_all_corrections`.
  - `Save` is the save button: validation, then the commit loop.

Some notes on how the model works:

- **Rendering.** Each render stores one entry per visited row, under that row's
  key. The render is specified by the function `StoreItems` over the visiting
  order `RenderItems`: farmer by farmer in ascending id order, each farmer's
  constraint rows and then its logic rows.
- **Rows that raise.** `int()` can raise on a logic row's value or Troster
  Value. `number_input` raises when its start value lies outside [min, max],
  or when an integer argument lies beyond ±(2^53 - 1), the integers a
  JavaScript number holds exactly (`MaxSafeInteger`). Any of these ends the
  script run. `Render` then returns `false`, and the entries stored before
  that row remain in the dict.
- **Explanations.** Validation counts entries whose explanation is non-blank
  after `strip()`. The record keeps the explanation as it was typed.
- **Save result.** Writing the records to the repository is a boolean
  parameter, `saved`. Keys are added to the resolved set while the records are
  built, so they stay resolved when the write fails. The pending dict is
  cleared only when the write succeeds.

Properties that show the app's quirks:

- `StaleEntryPassesValidation`: validation counts the dict's entries, not the
  outstanding rows. An explained entry from another enumerator, or from an
  earlier render, can therefore make the save valid while a current row still
  has no explanation.
- `LogicKeyLabel`: the label of a missing explanation comes from a substring
  test on the key. A logic entry whose variable name contains "constraint" is
  reported as a constraint error.
- `InitialValueInRange`: a "max 0" rule with a positive reported value, or a
  "min"-only rule above 100000, makes `number_input` raise.
- `ResolvedKeyIsShared`: keys carry no username. Resolving a row hides every
  other enumerator's row with the same unique_id and variable.

## Model

| member | source | states |
|---|---|---|
| Text.Strip | app.py:389 | `strip()` is empty exactly when the text is all whitespace, and otherwise neither starts nor ends with whitespace |
| Text.StripIsInnerSlice | app.py:389 | `strip()` is a slice of the text with only whitespace before and after it; with `Text.Strip` this is exactly the text minus its leading and trailing whitespace |
| Text.StripOfTrimmed | app.py:389 | a text without leading or trailing whitespace is its own `strip()` |
| Text.DigitRunsShape | app.py:287 | `re.findall(r'\d+', s)`, modelled by `DigitRuns`, is empty exactly when `s` has no digit, and every run it returns is a non-empty string of digits |
| Text.DigitRunsOfLiteral | app.py:287 | the digit runs of a digit string are that one string |
| Text.DigitRunsAppend | app.py:287 | the digit runs of `p + q`, with `p` not ending in a digit, are the runs of `p` followed by the runs of `q` |
| Text.DigitRunsAppendBefore | app.py:287 | the digit runs of `p + q`, with `q` not starting with a digit, are the runs of `p` followed by the runs of `q` |
| Text.DecimalRoundTrip | app.py:289 | `int()` of the decimal digits of `n` gives back `n` |
| Text.PyInt | app.py:299 | `int()` of a text succeeds only when the text holds a digit; `IntTextRoundTrip` and `PyIntOfPadded` give its value on every integer's decimal text |
| Text.IntTextRoundTrip | app.py:299 | `int(str(i)) == i` for every integer |
| Text.PyIntOfPadded | app.py:345-349 | `int()` ignores surrounding whitespace: `int(a + str(i) + b) == i` when `a` and `b` are all whitespace |
| Text.StripOfPadded | app.py:389 | `strip()` removes exactly the whitespace padding around a trimmed text |
| Text.IntTextHasNoUnderscore | app.py:271 | `str(i)` never contains an underscore |
| Text.IntTextInjective | app.py:271 | different integers print differently |
| Seqs.Filter | app.py:213-214 | a masked selection keeps exactly the rows satisfying the mask and never grows |
| Seqs.FilterCount | app.py:213-222 | a masked selection keeps each selected row's multiplicity and drops the others |
| Seqs.FilterTwice | app.py:213-222 | two successive masks select what their conjunction selects |
| Seqs.FilterHead | app.py:256-260 | the first selected row (`.iloc[0]`) is the first row of the table that satisfies the mask |
| Seqs.SortedDistinct | app.py:227 | `sorted(set(xs))` is strictly ascending and has exactly the values of `xs` |
| Seqs.StrictlyIncreasingUnique | app.py:227 | a strictly ascending list is determined by its elements, so the farmer list is the one ascending listing of the ids |
| Tables.ErrorKeyInjective | app.py:271 | two rows with the same error key come from the same table and share unique_id and variable (unique_id being an integer) |
| Tables.AsInt | app.py:345-349 | `int()` of a missing (NaN) cell raises; a numeric cell reads as its number and a text cell as `int()` of its text |
| Tables.CellTextRoundTrip | app.py:283-299 | a numeric cell read back from its text (`int(str(cell))`) is the same number |
| Tables.ErrorKeyParts | app.py:217-222 | the error key `ErrorKey` builds starts with the table's tag and continues after `<tag>_` with `str(unique_id)_variable` |
| Tables.Outstanding | app.py:213-222 | a row is outstanding exactly when it is in the table, belongs to the selected enumerator and its tagged key is not resolved |
| Tables.OutstandingAfterResolving | app.py:217-222 | resolving more keys removes exactly the outstanding rows carrying those keys |
| Tables.OutstandingEmptyOnceAllResolved | app.py:217-222 | once every outstanding key is resolved, nothing of that table is outstanding |
| Tables.UniqueIds | app.py:225-226 | the values of a table's `unique_id` column are exactly the farmers that have a row in it |
| Tables.FarmerIds | app.py:225-227 | the farmer list is strictly ascending and holds exactly the unique_ids that occur in either outstanding table |
| Tables.FarmerRows | app.py:246-247 | a farmer's rows are exactly the table's rows carrying that unique_id |
| Tables.ListedFarmerHasRows | app.py:249-251 | every listed farmer has at least one outstanding row, so `total_errors > 0` always holds |
| Tables.FarmerContact | app.py:252-260 | name and phone come from the farmer's first constraint row, else the first logic row, else both are empty |
| Bounds.LastLiteral | app.py:287-289 | the rule's last integer literal is absent exactly when the rule has no digit |
| Bounds.InferBounds | app.py:282-295 | inferred bounds are never negative |
| Bounds.InferBoundsWithoutDigits | app.py:283-295 | a rule without any digit keeps the defaults (0, 100000) |
| Bounds.InferBoundsBothKeywords | app.py:286-293 | a rule containing both "max" and "min" gets its last integer literal as both bounds |
| Bounds.LastLiteralIsLastRun | app.py:287-289 | for a rule `p + d + s` with `d` a maximal run of digits and no digit in `s`, the literal used is `int(d)`, whatever numbers precede it |
| Bounds.LastLiteralValue | app.py:287-289 | for every rule with a digit, the literal used is the value of the rule's last maximal run of digits |
| Bounds.InferBoundsWithoutKeywords | app.py:283-295 | a rule mentioning neither "max" nor "min" keeps the defaults (0, 100000) |
| Bounds.InferBoundsMaxRule | app.py:286-289 | a rule with "max" and no "min" whose last number is N gets bounds (0, N), also with text after N |
| Bounds.InferBoundsMinRule | app.py:290-293 | a rule with "min" and no "max" whose last number is N gets bounds (N, 100000), also with text after N |
| Bounds.InitialValue | app.py:297-305 | an unparsable value starts at min. A value below min is raised to min (unless min > max != 0), a value above a non-zero max is lowered to max, and a value in range is kept. With min <= max and max != 0 the start lies in [min, max]; with max == 0 only the lower clamp applies; with min > max != 0 a parsable value ends at max |
| Bounds.InitialValueBothKeywords | app.py:286-305 | with both keywords and a non-zero last literal N, the input always starts at N |
| Bounds.InitialValueInRange | app.py:297-315 | the clamped start lies in [min, max], as `number_input` demands, exactly when min <= max and, for max 0, the value does not parse to a positive number |
| Bounds.InferBoundsOutOfOrder | app.py:283-295 | the inferred min exceeds the max exactly for a "min"-only rule whose last number is above 100000 |
| Bounds.LogicInputOf | app.py:345-358 | present exactly when both `int()` calls succeed; difference is reported minus Troster; range is [0, twice the larger]; default is the reported value |
| Bounds.LogicDefaultInRange | app.py:352-358 | the logic default lies in its range exactly when the reported value is not negative |
| Session.PendingMap.Put | app.py:325-330 | `d[key] = entry` replaces the entry and keeps a known key's position, or appends a new key; well-formedness is kept |
| Session.EntryFor | app.py:306-330 | a stored entry carries the error type and the row it was rendered from |
| Session.EntryForMeaning | app.py:297-374 | a row stores an entry exactly when it renders: a constraint row unless its bounds are out of order, its max exceeds 2^53 - 1, or its max is 0 while its value parses to a positive number; a logic row when both numbers parse, the reported value is not negative and twice either number is at most 2^53 - 1. The entry holds the typed explanation (empty if untouched) and the input's value: the typed number, or else the clamped value (constraint) or reported value (logic) |
| Session.StoreItemsAppend | app.py:244-374 | storing two row sequences in turn equals storing their concatenation, and nothing is stored after a raise |
| Session.StoreItemsWf | app.py:325-330 | storing keeps every key once in the dict's iteration order |
| Session.StoreItemsEffect | app.py:325-374 | a store pass removes no key and adds only the keys of visited rows (all of them when nothing raises). Other entries are untouched, and every entry stays under its own row's key |
| Session.StoreItemsStoredIff | app.py:345-349 | a store pass completes exactly when no visited row raises |
| Session.RenderItemsMembers | app.py:244-337 | the render pass visits exactly the outstanding rows of both tables |
| Session.RenderKeys | app.py:244-374 | the keys the render pass visits are exactly the outstanding rows' keys |
| Session.RenderSucceedsIff | app.py:297-358 | the store pass completes exactly when every outstanding row renders: each constraint row's start lies in its bounds and its max is at most 2^53 - 1; each logic row has a value and Troster Value that `int()` accepts, a non-negative value, and an input max of at most 2^53 - 1 |
| Session.TablesKeysDisjoint | app.py:271 | constraint keys and logic keys never coincide |
| Session.OutstandingKeysSize | app.py:213-222 | under the table invariant, outstanding rows have pairwise distinct keys |
| Session.FreshRenderValidation | app.py:325-401 | after a render from an empty dict in which every outstanding row renders: one entry per outstanding row, under its key. Validation then passes exactly when every explanation is non-blank, exactly when nothing is missing |
| Session.CorrectionSession.constructor | app.py:130-133 | a new session has no resolved keys and no pending entries |
| Session.CorrectionSession.Store | app.py:325-330 | the dict gets the entry under its key; the resolved set is unchanged |
| Session.CorrectionSession.StoreRows | app.py:270-330 | a farmer's rows of one table are stored in order, stopping at the first that raises, as `StoreItems` specifies |
| Session.CorrectionSession.RenderFarmer | app.py:244-376 | one farmer: its constraint rows, then its logic rows, as `StoreItems` specifies |
| Session.CorrectionSession.Render | app.py:213-376 | the dict after the render pass is what `StoreItems` gives over the outstanding rows in farmer order; success means no row raised; the resolved set is unchanged |
| Session.Tally | app.py:385-399 | the loop's counter is the number of entries with a non-blank explanation, and its list is the label of every other entry, in iteration order |
| Session.CorrectionSession.ValidateAll | app.py:383-401 | the validation result: completed count, missing labels, total outstanding, and valid iff completed equals total; no state changes |
| Session.TotalOutstanding | app.py:384 | the error total counts the outstanding rows of both tables and never exceeds their sizes |
| Session.NoFarmersIffNothingOutstanding | app.py:225-230 | the farmer list is empty ("All errors corrected") exactly when the error total is 0, so the save section appears exactly when something is outstanding |
| Session.Label | app.py:393-399 | a missing explanation is reported as "Constraint error for <variable>" or "Logic error for <variable>"; `ConstraintKeyLabel` and `LogicKeyLabel` say which |
| Session.ValidationOf | app.py:383-401 | the result carries the given error total, and its completed count plus its missing labels account for every pending entry |
| Session.CompletedPlusMissing | app.py:388-399 | every pending entry is either counted or labelled missing |
| Session.MissingEmptyIffAllExplained | app.py:388-399 | nothing is missing exactly when every pending explanation is non-blank |
| Session.CountExplainedIsCardinality | app.py:388-390 | the completed counter is the number of distinct explained keys |
| Session.ValidIffNothingMissing | app.py:383-401 | with exactly one entry per outstanding error, the save is valid exactly when nothing is missing, exactly when every explanation is non-blank |
| Session.ValidSaveHasEntries | app.py:465-478 | a valid save always has entries, so "No corrections found" cannot follow the save button |
| Session.StaleEntryPassesValidation | app.py:384-401 | an explained leftover entry can make the save valid while a current entry is still reported missing |
| Session.ConstraintKeyLabel | app.py:393-395 | a constraint entry is always labelled "Constraint error for <variable>" |
| Session.LogicKeyLabel | app.py:393-399 | a logic entry is labelled "Logic" unless its variable name contains "constraint", in which case it is labelled "Constraint" |
| Session.MakeRecord | app.py:418-459 | the record has the entry's error type and copies every context column of the row (username, supervisor, woreda, kebele, farmer name, phone, subdate, unique_id, variable), its reported value as original value and its rule text or Troster Value as reference value. It also copies the entered value and the unstripped explanation, with the enumerator as corrector and the given date and timestamp |
| Session.RecordsAt | app.py:415-461 | the commit builds one record per key, the i-th from the i-th key's entry |
| Session.OneRecordPerEntry | app.py:415-461 | there are exactly as many records as pending entries, and each entry's record appears at its key's position |
| Session.CommitStep | app.py:461-463 | one more loop iteration adds one record and one resolved key |
| Session.CorrectionSession.Save | app.py:403-478 | an invalid result is rejected and changes nothing. A valid one yields the records of every entry. Every entry's key joins the resolved set whatever the write returns, and the dict is emptied only when the write succeeded |
| Session.CorrectionSession.Commit | app.py:415-478 | the records of all entries in iteration order; every pending key added to the resolved set; dict cleared only on a successful write; an empty dict yields "nothing to save" and no change |
| Session.CorrectionSession.RecordAndResolve | app.py:415-463 | the loop builds exactly `Records` of the keys and adds exactly those keys to the resolved set, leaving the dict alone |
| Session.CommitResolvesRendered | app.py:217-230 | once every outstanding key is committed, nothing is outstanding and the farmer list is empty |
| Session.ResolvedKeyIsShared | app.py:217-222 | resolving a key hides every enumerator's row with the same unique_id and variable |

## Left out

- GitHub access is not modelled: the token check, loading the two tables, and writing the corrections file. The same goes for base64 and CSV decoding and encoding. Tables arrive as decoded row sequences, and the write's outcome is the boolean parameter `saved` of `Save` and `Commit`.
- Session.Records, Session.MakeRecord, Session.CorrectionSession.Commit, Session.CorrectionSession.Save: `datetime.now()` is not modelled; the correction date and timestamp are string parameters. The model uses one date and one timestamp for the whole batch, while the program reads the clock twice for every record, so the records of one save can differ in their stamps.
- Streamlit rendering is not modelled: headers, expanders, metrics, messages, balloons, and the `st.stop()` / `st.rerun()` control flow. A raising row is modelled as the end of the render pass (`Render` returns `false`).
- The widget values are inputs, maps keyed by widget key. `number_input` keeps the user's value within [min, max], but the model does not restrict the typed number.
- Session.Step, Session.CorrectionSession.Render, Session.RenderSucceedsIff: two outstanding rows of one table with the same unique_id and variable share the widget keys `value_{key}` and `explain_{key}`, and Streamlit stops the page at the second such widget. The model does not capture that stop: it overwrites the first row's entry with the second's and carries on. `FreshRenderValidation` assumes the table invariant `IdentitiesUnique`, under which this cannot happen.
- `unique_id` is an integer in the model. Error keys are unambiguous (`ErrorKeyInjective`) and the farmer list sorts numerically only because of that. With text ids, uid "A" with variable "1_x" and uid "A_1" with variable "x" would both give `constraint_A_1_x`, and the farmer list would sort as strings.
- Python limits `int()` and `str()` on integers to 4300 decimal digits and raises beyond that. The model has no such limit, so the `except` around the bound inference (app.py:294-295) has no counterpart, and `IntTextRoundTrip` holds for every integer rather than only for those within the limit.
- The enumerator drop-down (app.py:201-210), the sorted list of all usernames with the first one preselected, is not modelled: the selected enumerator is a parameter.
- The admin metrics view is not modelled: counts and the last ten corrections of the ledger, read through GitHub.
- The render's per-farmer `total_errors > 0` test is not a branch of `Render`. `Tables.ListedFarmerHasRows` proves that it always holds.
- Table cells are integral numbers, text or missing (NaN). Float cells and `int()` truncating a float are not modelled.
- Only ASCII letters are lower-cased and only ASCII digits count as digits. Python's `lower()` and `\d` cover all of Unicode.
- `int()` on text accepts base-10 digits with single underscores and surrounding whitespace. Unicode digits are not accepted.
- Session.CorrectionSession.Save: the "No corrections found to save" branch is left out of its contract, because `ValidSaveHasEntries` shows it cannot follow a valid validation while errors are outstanding. `Commit` states it.

=== FILE: bounds.dfy ===
/** The numbers behind each correction input: the bounds read from a
    constraint rule, the initial value clamped into them, and the bounds,
    default and difference shown for a logic discrepancy. */
module Bounds {
  import opened Text
  import opened Tables

  datatype Bounds = Bounds(min: int, max: int)

  /** `st.number_input` accepts integer bounds and start values only within
      ±(2^53 - 1), the integers a JavaScript number holds exactly; beyond that it raises. */
  const MaxSafeInteger := 9007199254740991

  /** `min_val, max_val = 0, 100000` before the rule is read. */
  const DefaultBounds := Bounds(0, 100000)

  /** `int(numbers[-1])` where `numbers = re.findall(r'\d+', text)`; None when there is no digit. */
  function LastLiteral(text: string): (r: Option<nat>)
    ensures r.None? <==> forall i :: 0 <= i < |text| ==> !IsDigit(text[i])
  {
    var runs := DigitRuns(text);
    DigitRunsShape(text);
    if runs == [] then None else Some(DecimalValue(runs[|runs| - 1]))
  }

  /** Bounds of a constraint rule: a rule mentioning "max" (in any case) takes the
      text's last integer as maximum, one mentioning "min" takes the same last
      integer as minimum; a side without keyword or without any digit keeps its default. */
  function InferBounds(text: string): (b: Bounds)
    ensures b.min >= 0 && b.max >= 0
  {
    var lower := Lower(text);
    var last := LastLiteral(text);
    var max := if Contains(lower, "max") && last.Some? then last.value else DefaultBounds.max;
    var min := if Contains(lower, "min") && last.Some? then last.value else DefaultBounds.min;
    Bounds(min, max)
  }

  /** A rule without any digit leaves both defaults in place. */
  lemma InferBoundsWithoutDigits(text: string)
    requires forall i :: 0 <= i < |text| ==> !IsDigit(text[i])
    ensures InferBounds(text) == DefaultBounds
  {
  }

  /** A rule with both keywords gets one number for both bounds: the last
      integer literal of the text, whichever keyword it follows. */
  lemma InferBoundsBothKeywords(text: string)
    requires Contains(Lower(text), "max") && Contains(Lower(text), "min")
    requires exists i :: 0 <= i < |text| && IsDigit(text[i])
    ensures LastLiteral(text).Some?
    ensures InferBounds(text) == Bounds(LastLiteral(text).value, LastLiteral(text).value)
  {
  }

  /** The literal that counts is the last run of digits: for a rule `p + d + s`
      where `d` is a run of digits, `p` does not end in a digit and `s` has no
      digit, the last literal is `int(d)`, whatever numbers `p` contains. */
  lemma LastLiteralIsLastRun(p: string, d: string, s: string)
    requires d != [] && AllDigits(d)
    requires p == [] || !IsDigit(p[|p| - 1])
    requires forall k :: 0 <= k < |s| ==> !IsDigit(s[k])
    ensures LastLiteral(p + d + s) == Some(DecimalValue(d))
  {
    DigitRunsAppend(p, d);
    DigitRunsOfLiteral(d);
    DigitRunsAppendBefore(p + d, s);
    DigitRunsShape(s);
  }

  /** Every rule with a digit splits as `p + d + s` around its last run of digits `d`. */
  lemma {:induction false} LastRunOf(text: string) returns (i: nat, j: nat)
    requires exists k :: 0 <= k < |text| && IsDigit(text[k])
    ensures i < j <= |text| && AllDigits(text[i..j])
    ensures i == 0 || !IsDigit(text[i - 1])
    ensures forall k :: j <= k < |text| ==> !IsDigit(text[k])
    decreases |text|
  {
    var last := |text| - 1;
    if IsDigit(text[last]) {
      j := |text|;
      i := RunStart(text, j);
    } else {
      var init := text[..last];
      assert exists k :: 0 <= k < |init| && IsDigit(init[k]) by {
        var k :| 0 <= k < |text| && IsDigit(text[k]);
        assert k < last && init[k] == text[k];
      }
      i, j := LastRunOf(init);
      assert text[i..j] == init[i..j];
    }
  }

  lemma {:induction false} RunStart(text: string, j: nat) returns (i: nat)
    requires 0 < j <= |text| && IsDigit(text[j - 1])
    ensures i < j && AllDigits(text[i..j])
    ensures i == 0 || !IsDigit(text[i - 1])
    decreases j
  {
    if j == 1 || !IsDigit(text[j - 2]) {
      i := j - 1;
    } else {
      i := RunStart(text, j - 1);
      assert forall k :: i <= k < j ==> text[k] == (if k < j - 1 then text[i..j - 1][k - i] else text[j - 1]);
    }
  }

  /** For every rule with a digit, the last literal is the value of its last run of digits. */
  lemma LastLiteralValue(text: string)
    requires exists k :: 0 <= k < |text| && IsDigit(text[k])
    ensures exists i, j :: (0 <= i < j <= |text| && AllDigits(text[i..j])
      && (i == 0 || !IsDigit(text[i - 1])) && (forall k :: j <= k < |text| ==> !IsDigit(text[k]))
      && LastLiteral(text) == Some(DecimalValue(text[i..j])))
  {
    var i, j := LastRunOf(text);
    var p, d, s := text[..i], text[i..j], text[j..];
    assert text == p + d + s;
    LastLiteralIsLastRun(p, d, s);
  }

  /** A rule mentioning neither keyword keeps both defaults, whatever numbers it holds. */
  lemma InferBoundsWithoutKeywords(text: string)
    requires !Contains(Lower(text), "max") && !Contains(Lower(text), "min")
    ensures InferBounds(text) == DefaultBounds
  {
  }

  /** "max N": a rule that mentions only "max" and whose last number is N gets bounds (0, N). */
  lemma InferBoundsMaxRule(p: string, d: string, s: string)
    requires d != [] && AllDigits(d)
    requires p == [] || !IsDigit(p[|p| - 1])
    requires forall k :: 0 <= k < |s| ==> !IsDigit(s[k])
    requires Contains(Lower(p + d + s), "max") && !Contains(Lower(p + d + s), "min")
    ensures InferBounds(p + d + s) == Bounds(0, DecimalValue(d))
  {
    LastLiteralIsLastRun(p, d, s);
  }

  /** "min N": a rule that mentions only "min" and whose last number is N gets bounds (N, 100000). */
  lemma InferBoundsMinRule(p: string, d: string, s: string)
    requires d != [] && AllDigits(d)
    requires p == [] || !IsDigit(p[|p| - 1])
    requires forall k :: 0 <= k < |s| ==> !IsDigit(s[k])
    requires Contains(Lower(p + d + s), "min") && !Contains(Lower(p + d + s), "max")
    ensures InferBounds(p + d + s) == Bounds(DecimalValue(d), 100000)
  {
    LastLiteralIsLastRun(p, d, s);
  }

  /** The value the correction input starts from: the reported value as an
      int, raised to `min` when below it and lowered to `max` when above it
      unless `max` is 0; a reported value that `int()` rejects gives `min`. */
  function InitialValue(reported: Cell, b: Bounds): (v: int)
    ensures AsInt(reported).None? ==> v == b.min
    ensures b.min <= b.max && b.max != 0 ==> b.min <= v <= b.max
    ensures b.max == 0 ==> v >= b.min
    ensures AsInt(reported).Some? && b.max != 0 && b.min > b.max ==> v == b.max
    ensures AsInt(reported).Some? && b.min <= AsInt(reported).value && (b.max == 0 || AsInt(reported).value <= b.max)
      ==> v == AsInt(reported).value
    ensures AsInt(reported).Some? && AsInt(reported).value < b.min && (b.max == 0 || b.min <= b.max) ==> v == b.min
    ensures AsInt(reported).Some? && b.max != 0 && AsInt(reported).value > b.max ==> v == b.max
  {
    match AsInt(reported)
    case None => b.min
    case Some(x) =>
      var raised := if x < b.min then b.min else x;
      if b.max != 0 && raised > b.max then b.max else raised
  }

  /** With both keywords and a non-zero last literal N the input always starts at N. */
  lemma InitialValueBothKeywords(reported: Cell, text: string)
    requires Contains(Lower(text), "max") && Contains(Lower(text), "min")
    requires LastLiteral(text).Some? && LastLiteral(text).value != 0
    ensures InitialValue(reported, InferBounds(text)) == LastLiteral(text).value
  {
  }

  /** `st.number_input` raises unless its start value lies in [min, max]. The clamped
      start does exactly when min <= max and, for a maximum of 0, the reported value
      does not parse to a positive number. */
  lemma InitialValueInRange(reported: Cell, b: Bounds)
    requires b.min >= 0
    ensures var v := InitialValue(reported, b);
      b.min <= v <= b.max <==> b.min <= b.max && (b.max != 0 || AsInt(reported).None? || AsInt(reported).value <= 0)
  {
  }

  /** Inferred bounds are out of order only for a "min"-only rule whose last integer exceeds 100000. */
  lemma InferBoundsOutOfOrder(text: string)
    ensures InferBounds(text).min > InferBounds(text).max <==>
      && Contains(Lower(text), "min") && !Contains(Lower(text), "max")
      && LastLiteral(text).Some? && LastLiteral(text).value > DefaultBounds.max
  {
  }

  /** What the app shows and offers for a logic discrepancy. */
  datatype LogicInput = LogicInput(difference: int, min: int, max: int, default: int)

  /** `int(value) - int(troster)`, the input range `[0, max(value, troster) * 2]`
      and the default `int(value)`; None when either `int()` raises, which
      ends the script run. */
  function LogicInputOf(row: ErrorRow): (r: Option<LogicInput>)
    ensures r.Some? <==> AsInt(row.value).Some? && AsInt(row.reference).Some?
    ensures r.Some? ==>
      var reported, troster := AsInt(row.value).value, AsInt(row.reference).value;
      && r.value.difference == reported - troster
      && r.value.min == 0
      && r.value.max >= 2 * reported && r.value.max >= 2 * troster
      && (r.value.max == 2 * reported || r.value.max == 2 * troster)
      && r.value.default == reported
  {
    match (AsInt(row.value), AsInt(row.reference))
    case (Some(reported), Some(troster)) =>
      var larger := if reported >= troster then reported else troster;
      Some(LogicInput(reported - troster, 0, larger * 2, reported))
    case _ => None
  }

  /** The logic default lies inside its range exactly when the reported value is not negative. */
  lemma LogicDefaultInRange(row: ErrorRow)
    requires LogicInputOf(row).Some?
    ensures var w := LogicInputOf(row).value;
      (w.min <= w.default <= w.max) <==> AsInt(row.value).value >= 0
  {
  }
}

=== FILE: seqs.dfy ===
/** Sequence operations the app gets from pandas and Python built-ins:
    boolean-mask row selection (`df[mask]`) and `sorted(set(...))`. */
module Seqs {

  /** `df[mask]`: the rows satisfying `p`, in their original order. */
  function Filter<T(!new)>(s: seq<T>, p: T -> bool): (r: seq<T>)
    ensures |r| <= |s|
    ensures forall x :: x in r <==> x in s && p(x)
  {
    if s == [] then []
    else
      assert s == [s[0]] + s[1..];
      if p(s[0]) then [s[0]] + Filter(s[1..], p) else Filter(s[1..], p)
  }

  /** Each selected row keeps its multiplicity; a rejected one has none. */
  lemma {:induction false} FilterCount<T(!new)>(s: seq<T>, p: T -> bool)
    ensures forall x :: multiset(Filter(s, p))[x] == if p(x) then multiset(s)[x] else 0
  {
    if s != [] {
      FilterCount(s[1..], p);
      assert s == [s[0]] + s[1..];
    }
  }

  /** Two successive masks select what their conjunction selects. */
  lemma {:induction false} FilterTwice<T(!new)>(s: seq<T>, p: T -> bool, q: T -> bool, pq: T -> bool)
    requires forall x :: pq(x) == (p(x) && q(x))
    ensures Filter(Filter(s, p), q) == Filter(s, pq)
  {
    if s != [] {
      FilterTwice(s[1..], p, q, pq);
    }
  }

  /** `i` is the position of the first element of `s` that satisfies `p`. */
  predicate IsFirst<T>(s: seq<T>, p: T -> bool, i: int) {
    0 <= i < |s| && p(s[i]) && forall j :: 0 <= j < i ==> !p(s[j])
  }

  /** The first selected row (`.iloc[0]`) is the first row of `s` that satisfies `p`. */
  lemma {:induction false} FilterHead<T(!new)>(s: seq<T>, p: T -> bool)
    requires Filter(s, p) != []
    ensures exists i :: IsFirst(s, p, i) && Filter(s, p)[0] == s[i]
  {
    if p(s[0]) {
      assert IsFirst(s, p, 0);
    } else {
      FilterHead(s[1..], p);
      var k :| IsFirst(s[1..], p, k) && Filter(s[1..], p)[0] == s[1..][k];
      assert IsFirst(s, p, k + 1);
    }
  }

  /** A mask that selects nothing gives an empty table. */
  lemma {:induction false} FilterNone<T(!new)>(s: seq<T>, p: T -> bool)
    requires forall x :: x in s ==> !p(x)
    ensures Filter(s, p) == []
  {
    if s != [] {
      assert s[0] in s;
      assert forall x :: x in s[1..] ==> x in s;
      FilterNone(s[1..], p);
    }
  }

  predicate StrictlyIncreasing(s: seq<int>) {
    forall i, j :: 0 <= i < j < |s| ==> s[i] < s[j]
  }

  predicate NoDuplicates<T(==)>(s: seq<T>) {
    forall i, j :: 0 <= i < j < |s| ==> s[i] != s[j]
  }

  function InsertSorted(x: int, s: seq<int>): (r: seq<int>)
    requires StrictlyIncreasing(s)
    ensures StrictlyIncreasing(r)
    ensures forall y :: y in r <==> y == x || y in s
  {
    if s == [] then [x]
    else if x < s[0] then [x] + s
    else if x == s[0] then s
    else
      var rest := InsertSorted(x, s[1..]);
      assert forall y :: y in s <==> y == s[0] || y in s[1..];
      assert forall k :: 0 <= k < |rest| ==> rest[k] in rest && s[0] < rest[k];
      [s[0]] + rest
  }

  /** `sorted(set(xs))`: the distinct values of `xs` in ascending order. */
  function SortedDistinct(xs: seq<int>): (r: seq<int>)
    ensures StrictlyIncreasing(r)
    ensures forall y :: y in r <==> y in xs
  {
    if xs == [] then []
    else
      var init := xs[..|xs| - 1];
      assert xs == init + [xs[|xs| - 1]];
      InsertSorted(xs[|xs| - 1], SortedDistinct(init))
  }

  /** An ascending sequence without repeats is determined by its elements, so
      `SortedDistinct` is the one ascending listing of the set. */
  lemma {:induction false} StrictlyIncreasingUnique(a: seq<int>, b: seq<int>)
    requires StrictlyIncreasing(a) && StrictlyIncreasing(b)
    requires forall y :: y in a <==> y in b
    ensures a == b
  {
    SameMembersSameLength(a, b);
    if a != [] {
      HeadsAgree(a, b);
      StrictlyIncreasingUnique(a[1..], b[1..]);
      assert a == [a[0]] + a[1..] && b == [b[0]] + b[1..];
    }
  }

  lemma SameMembersSameLength(a: seq<int>, b: seq<int>)
    requires NoDuplicates(a) && NoDuplicates(b)
    requires forall y :: y in a <==> y in b
    ensures |a| == |b|
  {
    NoDuplicatesCardinality(a);
    NoDuplicatesCardinality(b);
    assert (set y | y in a) == (set y | y in b);
  }

  lemma HeadsAgree(a: seq<int>, b: seq<int>)
    requires StrictlyIncreasing(a) && StrictlyIncreasing(b) && a != [] && b != []
    requires forall y :: y in a <==> y in b
    ensures a[0] == b[0]
    ensures forall y :: y in a[1..] <==> y in b[1..]
  {
    assert a[0] in b && b[0] in a;
    assert a[0] == b[0];
    forall y ensures y in a[1..] <==> y in b[1..] {
      assert y in a[1..] ==> y in a && y != a[0];
      assert y in b[1..] ==> y in b && y != b[0];
    }
  }

  /** A sequence without repeats has as many elements as its set. */
  lemma {:induction false} NoDuplicatesCardinality<T>(s: seq<T>)
    requires NoDuplicates(s)
    ensures |set x | x in s| == |s|
  {
    if s != [] {
      var rest := s[1..];
      NoDuplicatesCardinality(rest);
      assert (set x | x in s) == {s[0]} + (set x | x in rest);
      assert s[0] !in rest;
    }
  }
}

=== FILE: session.dfy ===
/** The correction session: the pending-edit dict (`all_corrections_data`),
    the resolved-key set (`corrected_errors`), the render pass that fills the
    dict from the correction inputs, the save validation and the save commit. */
module Session {
  import opened Text
  import opened Seqs
  import opened Tables
  import opened Bounds

  /** One value of `all_corrections_data`: error type, source row, entered value and explanation. */
  datatype Pending = Pending(errorType: ErrorType, errorData: ErrorRow, correctValue: int, explanation: string)

  /** A Python dict from error key to pending correction; `order` is its
      iteration order (first insertion; overwriting keeps the position). */
  datatype PendingMap = PendingMap(order: seq<string>, entries: map<string, Pending>) {

    ghost predicate Wf() {
      && NoDuplicates(order)
      && (forall k :: k in order ==> k in entries)
      && (forall k :: k in entries ==> k in order)
    }

    /** `d[key] = entry`. */
    function Put(key: string, entry: Pending): (d: PendingMap)
      ensures Wf() ==> d.Wf()
      ensures d.entries == entries[key := entry]
      ensures d.order == if key in entries then order else order + [key]
    {
      if key in entries then PendingMap(order, entries[key := entry])
      else PendingMap(order + [key], entries[key := entry])
    }
  }

  const NoPending := PendingMap([], map[])

  /** Every entry is filed under the key of its own row. */
  ghost predicate KeysMatchRows(entries: map<string, Pending>) {
    forall k :: k in entries ==> ErrorKey(entries[k].errorType, entries[k].errorData) == k
  }

  /** Values held by the correction inputs, keyed by widget key
      (`value_{error_key}`, `explain_{error_key}`); a missing key is an
      input the user has not touched, which shows its default. */
  datatype Widgets = Widgets(numbers: map<string, int>, texts: map<string, string>)

  function Lookup<V>(m: map<string, V>, key: string, default: V): V {
    if key in m then m[key] else default
  }

  /** The entry one row's inputs store; None when rendering the row raises:
      `int()` rejects a logic row's value or Troster Value, or the start value
      handed to `st.number_input` lies outside its [min, max], or its max exceeds
      `MaxSafeInteger` (its min and start are then in range too). */
  function EntryFor(t: ErrorType, row: ErrorRow, ui: Widgets): (r: Option<Pending>)
    ensures r.Some? ==> r.value.errorType == t && r.value.errorData == row
  {
    var key := ErrorKey(t, row);
    var explanation := Lookup(ui.texts, "explain_" + key, "");
    match t
    case Constraint =>
      var b := InferBounds(CellText(row.reference));
      var start := InitialValue(row.value, b);
      if start < b.min || start > b.max || b.max > MaxSafeInteger then None
      else Some(Pending(Constraint, row, Lookup(ui.numbers, "value_" + key, start), explanation))
    case Logic =>
      match LogicInputOf(row)
      case None => None
      case Some(w) =>
        if w.default < w.min || w.default > w.max || w.max > MaxSafeInteger then None
        else Some(Pending(Logic, row, Lookup(ui.numbers, "value_" + key, w.default), explanation))
  }

  /** When a row's inputs render, in terms of its cells: a constraint row unless its
      bounds are out of order, its maximum exceeds `MaxSafeInteger`, or its maximum is 0
      while its value parses to a positive number; a logic row when both numbers parse,
      the reported value is not negative and twice either number is at most `MaxSafeInteger`. */
  predicate RowRenders(t: ErrorType, row: ErrorRow) {
    match t
    case Constraint =>
      var b := InferBounds(CellText(row.reference));
      && b.min <= b.max && b.max <= MaxSafeInteger
      && (b.max != 0 || AsInt(row.value).None? || AsInt(row.value).value <= 0)
    case Logic =>
      && LogicInputOf(row).Some? && AsInt(row.value).value >= 0
      && 2 * AsInt(row.value).value <= MaxSafeInteger && 2 * AsInt(row.reference).value <= MaxSafeInteger
  }

  /** A row stores an entry exactly when it renders; the entry holds the row, the
      text typed in its explanation box (empty if untouched) and the number in its
      value box, which starts at the clamped reported value (constraint) or at the
      reported value (logic). */
  lemma EntryForMeaning(t: ErrorType, row: ErrorRow, ui: Widgets)
    ensures var r := EntryFor(t, row, ui);
      var key := ErrorKey(t, row);
      && (r.Some? <==> RowRenders(t, row))
      && (r.Some? ==> r.value.explanation == Lookup(ui.texts, "explain_" + key, ""))
      && (r.Some? && "value_" + key in ui.numbers ==> r.value.correctValue == ui.numbers["value_" + key])
      && (r.Some? && "value_" + key !in ui.numbers ==>
           r.value.correctValue == (if t == Constraint then InitialValue(row.value, InferBounds(CellText(row.reference)))
                                    else LogicInputOf(row).value.default))
  {
    match t
    case Constraint =>
      InitialValueInRange(row.value, InferBounds(CellText(row.reference)));
    case Logic =>
      if LogicInputOf(row).Some? {
        LogicDefaultInRange(row);
      }
  }

  /** One row visited by the render pass, with the table it comes from. */
  datatype Item = Item(t: ErrorType, row: ErrorRow)

  function Tagged(t: ErrorType, rows: seq<ErrorRow>): (items: seq<Item>)
    ensures |items| == |rows|
    ensures forall i :: 0 <= i < |rows| ==> items[i] == Item(t, rows[i])
  {
    seq(|rows|, i requires 0 <= i < |rows| => Item(t, rows[i]))
  }

  /** The order in which the render pass visits rows: farmer by farmer, each
      farmer's constraint rows and then its logic rows, in table order. */
  function RenderItems(farmers: seq<int>, constraints: seq<ErrorRow>, logic: seq<ErrorRow>): seq<Item> {
    if farmers == [] then []
    else
      var f := farmers[|farmers| - 1];
      RenderItems(farmers[..|farmers| - 1], constraints, logic) + FarmerItems(f, constraints, logic)
  }

  /** The dict after a sequence of stores, or the dict as it stood when a store raised. */
  datatype StoreOutcome = Stored(d: PendingMap) | Crashed(d: PendingMap)

  /** One more row: nothing happens after a raise; otherwise the row's entry
      is stored under its key, or rendering it raises. */
  function Step(o: StoreOutcome, it: Item, ui: Widgets): (o': StoreOutcome)
  {
    match o
    case Crashed(_) => o
    case Stored(d) =>
      match EntryFor(it.t, it.row, ui)
      case None => Crashed(d)
      case Some(p) => Stored(d.Put(ErrorKey(it.t, it.row), p))
  }

  lemma TaggedAppend(t: ErrorType, a: seq<ErrorRow>, b: seq<ErrorRow>)
    ensures Tagged(t, a + b) == Tagged(t, a) + Tagged(t, b)
  {
  }

  lemma TaggedSnoc(t: ErrorType, rows: seq<ErrorRow>, j: nat)
    requires j < |rows|
    ensures Tagged(t, rows[..j + 1]) == Tagged(t, rows[..j]) + [Item(t, rows[j])]
  {
  }

  lemma StepStores(d: PendingMap, it: Item, ui: Widgets)
    requires EntryFor(it.t, it.row, ui).Some?
    ensures Step(Stored(d), it, ui) == Stored(d.Put(ErrorKey(it.t, it.row), EntryFor(it.t, it.row, ui).value))
  {
  }

  lemma StepRaises(d: PendingMap, it: Item, ui: Widgets)
    requires EntryFor(it.t, it.row, ui).None?
    ensures Step(Stored(d), it, ui) == Crashed(d)
  {
  }

  /** Storing row `j` of `rows` after rows `..j`. */
  lemma RowStored(t: ErrorType, rows: seq<ErrorRow>, j: nat, ui: Widgets, d0: PendingMap, d: PendingMap)
    requires j < |rows|
    requires StoreItems(Tagged(t, rows[..j]), ui, d0) == Stored(d)
    requires EntryFor(t, rows[j], ui).Some?
    ensures StoreItems(Tagged(t, rows[..j + 1]), ui, d0) == Stored(d.Put(ErrorKey(t, rows[j]), EntryFor(t, rows[j], ui).value))
  {
    TaggedSnoc(t, rows, j);
    StoreItemsSnoc(Tagged(t, rows[..j]), Item(t, rows[j]), ui, d0);
    StepStores(d, Item(t, rows[j]), ui);
  }

  /** Rendering row `j` raises: the rows after it are never reached. */
  lemma RowRaises(t: ErrorType, rows: seq<ErrorRow>, j: nat, ui: Widgets, d0: PendingMap, d: PendingMap)
    requires j < |rows|
    requires StoreItems(Tagged(t, rows[..j]), ui, d0) == Stored(d)
    requires EntryFor(t, rows[j], ui).None?
    ensures StoreItems(Tagged(t, rows), ui, d0) == Crashed(d)
  {
    TaggedSnoc(t, rows, j);
    StoreItemsSnoc(Tagged(t, rows[..j]), Item(t, rows[j]), ui, d0);
    StepRaises(d, Item(t, rows[j]), ui);
    TaggedAppend(t, rows[..j + 1], rows[j + 1..]);
    assert rows[..j + 1] + rows[j + 1..] == rows;
    StoreItemsAppend(Tagged(t, rows[..j + 1]), Tagged(t, rows[j + 1..]), ui, d0);
  }

  function StoreItems(items: seq<Item>, ui: Widgets, d: PendingMap): (o: StoreOutcome)
  {
    if items == [] then Stored(d)
    else Step(StoreItems(items[..|items| - 1], ui, d), items[|items| - 1], ui)
  }

  lemma StoreItemsSnoc(items: seq<Item>, it: Item, ui: Widgets, d: PendingMap)
    ensures StoreItems(items + [it], ui, d) == Step(StoreItems(items, ui, d), it, ui)
  {
    assert (items + [it])[..|items|] == items;
  }

  function Then(o: StoreOutcome, items: seq<Item>, ui: Widgets): StoreOutcome
  {
    if o.Crashed? then o else StoreItems(items, ui, o.d)
  }

  lemma {:induction false} StoreItemsAppend(a: seq<Item>, b: seq<Item>, ui: Widgets, d: PendingMap)
    ensures StoreItems(a + b, ui, d) == Then(StoreItems(a, ui, d), b, ui)
  {
    if b == [] {
      assert a + b == a;
    } else {
      var init, x := b[..|b| - 1], b[|b| - 1];
      assert b == init + [x];
      StoreItemsAppend(a, init, ui, d);
      StoreItemsAppendStep(a, init, x, ui, d);
    }
  }

  lemma ThenSnoc(o: StoreOutcome, init: seq<Item>, x: Item, ui: Widgets)
    ensures Then(o, init + [x], ui) == Step(Then(o, init, ui), x, ui)
  {
    if o.Stored? {
      StoreItemsSnoc(init, x, ui, o.d);
    }
  }

  lemma StoreItemsAppendStep(a: seq<Item>, init: seq<Item>, x: Item, ui: Widgets, d: PendingMap)
    requires StoreItems(a + init, ui, d) == Then(StoreItems(a, ui, d), init, ui)
    ensures StoreItems(a + (init + [x]), ui, d) == Then(StoreItems(a, ui, d), init + [x], ui)
  {
    assert a + (init + [x]) == (a + init) + [x];
    StoreItemsSnoc(a + init, x, ui, d);
    ThenSnoc(StoreItems(a, ui, d), init, x, ui);
  }

  /** Storing keeps the dict well formed: each key once in the iteration order. */
  lemma {:induction false} StoreItemsWf(items: seq<Item>, ui: Widgets, d: PendingMap)
    requires d.Wf()
    ensures StoreItems(items, ui, d).d.Wf()
  {
    if items != [] {
      StoreItemsWf(items[..|items| - 1], ui, d);
    }
  }

  function ItemKeys(items: seq<Item>): set<string> {
    set i | i in items :: ErrorKey(i.t, i.row)
  }

  /** One step adds at most the key of its row, keeps every other entry and files the new one under its own key. */
  lemma StepEffect(o: StoreOutcome, it: Item, ui: Widgets)
    requires KeysMatchRows(o.d.entries)
    ensures var o' := Step(o, it, ui);
      && o.d.entries.Keys <= o'.d.entries.Keys <= o.d.entries.Keys + {ErrorKey(it.t, it.row)}
      && (o'.Stored? ==> o.Stored? && o'.d.entries.Keys == o.d.entries.Keys + {ErrorKey(it.t, it.row)})
      && (forall k :: k in o.d.entries && k != ErrorKey(it.t, it.row) ==> o'.d.entries[k] == o.d.entries[k])
      && KeysMatchRows(o'.d.entries)
  {
  }

  lemma ItemKeysLast(items: seq<Item>)
    requires items != []
    ensures ItemKeys(items) == ItemKeys(items[..|items| - 1]) + {ErrorKey(items[|items| - 1].t, items[|items| - 1].row)}
  {
    var init, last := items[..|items| - 1], items[|items| - 1];
    assert items == init + [last];
    assert forall i :: i in items <==> i in init || i == last;
  }

  /** What a store pass does to the dict: no key is removed, keys of visited rows
      are the only ones added (all of them when no row raises), every other
      entry is untouched, and every entry is filed under its own row's key. */
  lemma {:induction false} StoreItemsEffect(items: seq<Item>, ui: Widgets, d: PendingMap)
    requires KeysMatchRows(d.entries)
    ensures var o := StoreItems(items, ui, d);
      && d.entries.Keys <= o.d.entries.Keys <= d.entries.Keys + ItemKeys(items)
      && (o.Stored? ==> o.d.entries.Keys == d.entries.Keys + ItemKeys(items))
      && (forall k :: k in d.entries && k !in ItemKeys(items) ==> o.d.entries[k] == d.entries[k])
      && KeysMatchRows(o.d.entries)
  {
    if items != [] {
      var init := items[..|items| - 1];
      var last := items[|items| - 1];
      StoreItemsEffect(init, ui, d);
      StoreItemsLast(items, ui, d);
      ItemKeysLast(items);
      StepEffect(StoreItems(init, ui, d), last, ui);
    }
  }

  lemma TaggedMembers(t: ErrorType, rows: seq<ErrorRow>, it: Item)
    ensures it in Tagged(t, rows) <==> it.t == t && it.row in rows
  {
    if it in Tagged(t, rows) {
      var i :| 0 <= i < |rows| && Tagged(t, rows)[i] == it;
    }
    if it.t == t && it.row in rows {
      var i :| 0 <= i < |rows| && rows[i] == it.row;
      assert Tagged(t, rows)[i] == it;
    }
  }

  lemma FarmerItemsMembers(f: int, constraints: seq<ErrorRow>, logic: seq<ErrorRow>, it: Item)
    ensures it in FarmerItems(f, constraints, logic) <==>
      (it.row.ctx.uniqueId == f && ((it.t == Constraint && it.row in constraints) || (it.t == Logic && it.row in logic)))
  {
    TaggedMembers(Constraint, FarmerRows(constraints, f), it);
    TaggedMembers(Logic, FarmerRows(logic, f), it);
  }

  /** The render pass visits exactly the outstanding rows of both tables. */
  lemma {:induction false} RenderItemsMembers(farmers: seq<int>, constraints: seq<ErrorRow>, logic: seq<ErrorRow>, it: Item)
    ensures it in RenderItems(farmers, constraints, logic) <==>
      (it.row.ctx.uniqueId in farmers && ((it.t == Constraint && it.row in constraints) || (it.t == Logic && it.row in logic)))
  {
    if farmers != [] {
      var init := farmers[..|farmers| - 1];
      var f := farmers[|farmers| - 1];
      RenderItemsMembers(init, constraints, logic, it);
      FarmerItemsMembers(f, constraints, logic, it);
      assert farmers == init + [f];
    }
  }

  /** The keys of the outstanding rows of both tables. */
  function OutstandingKeys(constraints: seq<ErrorRow>, logic: seq<ErrorRow>): set<string> {
    RowKeys(Constraint, constraints) + RowKeys(Logic, logic)
  }

  lemma RenderKeys(constraints: seq<ErrorRow>, logic: seq<ErrorRow>)
    ensures ItemKeys(RenderItems(FarmerIds(constraints, logic), constraints, logic)) == OutstandingKeys(constraints, logic)
  {
    var farmers := FarmerIds(constraints, logic);
    var items := RenderItems(farmers, constraints, logic);
    forall k | k in ItemKeys(items) ensures k in OutstandingKeys(constraints, logic) {
      var it :| it in items && ErrorKey(it.t, it.row) == k;
      RenderItemsMembers(farmers, constraints, logic, it);
    }
    forall k | k in OutstandingKeys(constraints, logic) ensures k in ItemKeys(items) {
      if k in RowKeys(Constraint, constraints) {
        var r :| r in constraints && ErrorKey(Constraint, r) == k;
        var i :| 0 <= i < |constraints| && constraints[i] == r;
        assert HasFarmer(constraints, r.ctx.uniqueId);
        RenderItemsMembers(farmers, constraints, logic, Item(Constraint, r));
      } else {
        var r :| r in logic && ErrorKey(Logic, r) == k;
        var i :| 0 <= i < |logic| && logic[i] == r;
        assert HasFarmer(logic, r.ctx.uniqueId);
        RenderItemsMembers(farmers, constraints, logic, Item(Logic, r));
      }
    }
  }

  /** Number of entries, in iteration order, whose explanation is not blank. */
  function CountExplained(keys: seq<string>, entries: map<string, Pending>): nat
    requires forall k :: k in keys ==> k in entries
  {
    if keys == [] then 0
    else
      var k := keys[|keys| - 1];
      CountExplained(keys[..|keys| - 1], entries) + (if NonBlank(entries[k].explanation) then 1 else 0)
  }

  /** The label the validation reports for an entry without explanation; the
      error type is read off the key with a substring test. */
  function Label(key: string, p: Pending): (shown: string)
    ensures shown == "Constraint error for " + p.errorData.ctx.variable || shown == "Logic error for " + p.errorData.ctx.variable
  {
    (if Contains(key, "constraint") then "Constraint" else "Logic") + " error for " + p.errorData.ctx.variable
  }

  /** One label per entry with a blank explanation, in iteration order. */
  function MissingLabels(keys: seq<string>, entries: map<string, Pending>): seq<string>
    requires forall k :: k in keys ==> k in entries
  {
    if keys == [] then []
    else
      var k := keys[|keys| - 1];
      MissingLabels(keys[..|keys| - 1], entries) + (if NonBlank(entries[k].explanation) then [] else [Label(k, entries[k])])
  }

  /** One more iteration of the validation loop. */
  lemma ValidationStep(keys: seq<string>, i: nat, entries: map<string, Pending>)
    requires i < |keys| && forall k :: k in keys ==> k in entries
    ensures CountExplained(keys[..i + 1], entries)
      == CountExplained(keys[..i], entries) + (if NonBlank(entries[keys[i]].explanation) then 1 else 0)
    ensures MissingLabels(keys[..i + 1], entries)
      == MissingLabels(keys[..i], entries) + (if NonBlank(entries[keys[i]].explanation) then [] else [Label(keys[i], entries[keys[i]])])
  {
    assert keys[..i + 1][..i] == keys[..i];
  }

  /** The four results of `validate_all_corrections`. */
  datatype Validation = Validation(valid: bool, missing: seq<string>, completed: nat, total: nat)

  function ValidationOf(d: PendingMap, total: nat): (v: Validation)
    requires d.Wf()
    ensures v.total == total
    ensures v.completed + |v.missing| == |d.order|
  {
    CompletedPlusMissing(d.order, d.entries);
    var completed := CountExplained(d.order, d.entries);
    Validation(completed == total, MissingLabels(d.order, d.entries), completed, total)
  }

  /** `len(enumerator_constraints) + len(enumerator_logic)`. */
  function TotalOutstanding(constraints: seq<ErrorRow>, logic: seq<ErrorRow>, enumerator: string, resolved: set<string>): (total: nat)
    ensures total <= |constraints| + |logic|
  {
    |Outstanding(constraints, Constraint, enumerator, resolved)| + |Outstanding(logic, Logic, enumerator, resolved)|
  }

  /** The save section is shown exactly when the farmer list is non-empty
      (app.py:230), which is exactly when some error is outstanding. */
  lemma NoFarmersIffNothingOutstanding(constraints: seq<ErrorRow>, logic: seq<ErrorRow>, enumerator: string, resolved: set<string>)
    ensures var oc := Outstanding(constraints, Constraint, enumerator, resolved);
      var ol := Outstanding(logic, Logic, enumerator, resolved);
      FarmerIds(oc, ol) == [] <==> TotalOutstanding(constraints, logic, enumerator, resolved) == 0
  {
    var oc := Outstanding(constraints, Constraint, enumerator, resolved);
    var ol := Outstanding(logic, Logic, enumerator, resolved);
    if oc != [] {
      assert HasFarmer(oc, oc[0].ctx.uniqueId);
      assert oc[0].ctx.uniqueId in FarmerIds(oc, ol);
    } else if ol != [] {
      assert HasFarmer(ol, ol[0].ctx.uniqueId);
      assert ol[0].ctx.uniqueId in FarmerIds(oc, ol);
    }
  }

  /** Every entry is either counted as completed or labelled as missing. */
  lemma {:induction false} CompletedPlusMissing(keys: seq<string>, entries: map<string, Pending>)
    requires forall k :: k in keys ==> k in entries
    ensures CountExplained(keys, entries) + |MissingLabels(keys, entries)| == |keys|
  {
    if keys != [] {
      CompletedPlusMissing(keys[..|keys| - 1], entries);
    }
  }

  lemma {:induction false} MissingEmptyIffAllExplained(keys: seq<string>, entries: map<string, Pending>)
    requires forall k :: k in keys ==> k in entries
    ensures MissingLabels(keys, entries) == [] <==> forall k :: k in keys ==> NonBlank(entries[k].explanation)
  {
    if keys != [] {
      var init := keys[..|keys| - 1];
      var last := keys[|keys| - 1];
      MissingEmptyIffAllExplained(init, entries);
      assert keys == init + [last];
      assert MissingLabels(keys, entries)
        == MissingLabels(init, entries) + (if NonBlank(entries[last].explanation) then [] else [Label(last, entries[last])]);
      assert forall k :: k in keys <==> k in init || k == last;
    }
  }

  /** The distinct keys whose entry has a non-blank explanation. */
  function ExplainedKeys(keys: seq<string>, entries: map<string, Pending>): set<string>
    requires forall k :: k in keys ==> k in entries
  {
    set k | k in keys && NonBlank(entries[k].explanation)
  }

  lemma ExplainedKeysSnoc(init: seq<string>, k: string, entries: map<string, Pending>)
    requires forall j :: j in init + [k] ==> j in entries
    ensures ExplainedKeys(init + [k], entries)
      == ExplainedKeys(init, entries) + (if NonBlank(entries[k].explanation) then {k} else {})
  {
    assert forall j :: j in init + [k] <==> j in init || j == k;
  }

  /** The running counter equals the number of distinct keys with a non-blank explanation. */
  lemma {:induction false} CountExplainedIsCardinality(keys: seq<string>, entries: map<string, Pending>)
    requires forall k :: k in keys ==> k in entries
    requires NoDuplicates(keys)
    ensures CountExplained(keys, entries) == |ExplainedKeys(keys, entries)|
  {
    if keys != [] {
      var init := keys[..|keys| - 1];
      var k := keys[|keys| - 1];
      assert keys == init + [k];
      assert k !in init;
      CountExplainedIsCardinality(init, entries);
      ExplainedKeysSnoc(init, k, entries);
      assert k !in ExplainedKeys(init, entries);
    }
  }

  lemma PendingSize(d: PendingMap)
    requires d.Wf()
    ensures |d.order| == |d.entries|
  {
    NoDuplicatesCardinality(d.order);
    assert (set k | k in d.order) == d.entries.Keys;
  }

  /** When the dict holds exactly one entry per outstanding error, the save is
      valid exactly when no explanation is blank, i.e. when nothing is missing. */
  lemma ValidIffNothingMissing(d: PendingMap, total: nat)
    requires d.Wf() && |d.entries| == total
    ensures ValidationOf(d, total).valid <==> ValidationOf(d, total).missing == []
    ensures ValidationOf(d, total).valid <==> forall k :: k in d.entries ==> NonBlank(d.entries[k].explanation)
  {
    PendingSize(d);
    CompletedPlusMissing(d.order, d.entries);
    MissingEmptyIffAllExplained(d.order, d.entries);
  }

  /** A valid save always has entries to commit, so the "no corrections found"
      branch cannot be reached from the save button. */
  lemma ValidSaveHasEntries(d: PendingMap, total: nat)
    requires d.Wf() && total > 0
    ensures ValidationOf(d, total).valid ==> d.order != []
  {
    if d.order == [] {
      assert CountExplained(d.order, d.entries) == 0;
    }
  }

  /** Entries are counted, not outstanding keys: an explained entry left over
      from another enumerator (or from an earlier render) stands in for a
      blank current one, and the save goes through with a missing label. */
  lemma StaleEntryPassesValidation(staleKey: string, stale: Pending, key: string, current: Pending)
    requires staleKey != key
    requires NonBlank(stale.explanation) && !NonBlank(current.explanation)
    ensures var d := PendingMap([staleKey, key], map[staleKey := stale, key := current]);
      && d.Wf()
      && ValidationOf(d, 1).valid
      && ValidationOf(d, 1).missing == [Label(key, current)]
  {
    var d := PendingMap([staleKey, key], map[staleKey := stale, key := current]);
    assert d.order[..1] == [staleKey];
    assert [staleKey][..0] == [];
    assert CountExplained([], d.entries) == 0 && MissingLabels([], d.entries) == [];
    assert CountExplained([staleKey], d.entries) == 1;
    assert MissingLabels([staleKey], d.entries) == [];
    assert CountExplained(d.order, d.entries) == 1;
  }

  /** The substring test on the key labels every constraint entry as a constraint error. */
  lemma ConstraintKeyLabel(row: ErrorRow, p: Pending)
    ensures Label(ErrorKey(Constraint, row), p) == "Constraint error for " + p.errorData.ctx.variable
  {
    var rest := "_" + IntText(row.ctx.uniqueId) + "_" + row.ctx.variable;
    assert ErrorKey(Constraint, row) == "constraint" + rest;
    assert ("constraint" + rest)[..|"constraint"|] == "constraint";
    assert Contains(ErrorKey(Constraint, row), "constraint");
  }

  lemma {:induction false} ContainsIgnoresPrefix(a: string, b: string, p: string)
    requires p != [] && forall i :: 0 <= i < |a| ==> a[i] != p[0]
    ensures Contains(a + b, p) == Contains(b, p)
  {
    if a == [] {
      assert a + b == b;
    } else {
      assert (a + b)[0] == a[0];
      assert (a + b)[1..] == a[1..] + b;
      ContainsIgnoresPrefix(a[1..], b, p);
    }
  }

  /** "constraint" cannot start inside the "logic_" tag. */
  lemma LogicTagSkipped(x: string)
    ensures Contains("logic_" + x, "constraint") == Contains(x, "constraint")
  {
    assert "logic_" + x == "logi" + ("c_" + x);
    ContainsIgnoresPrefix("logi", "c_" + x, "constraint");
    assert ("c_" + x)[1..] == "_" + x;
    assert ("c_" + x)[1] == '_' && "constraint"[1] == 'o';
    assert !StartsWith("c_" + x, "constraint");
    ContainsIgnoresPrefix("_", x, "constraint");
  }

  /** Nor inside `str(unique_id) + "_"`, which holds only digits, a sign and an underscore. */
  lemma IdSkipped(id: int, v: string)
    ensures Contains(IntText(id) + "_" + v, "constraint") == Contains(v, "constraint")
  {
    var m: nat := if id < 0 then -id else id;
    assert AllDigits(NatToDecimal(m));
    var pre := IntText(id) + "_";
    assert forall i :: 0 <= i < |pre| ==> pre[i] == '-' || IsDigit(pre[i]) || pre[i] == '_';
    ContainsIgnoresPrefix(pre, v, "constraint");
  }

  /** A logic entry is labelled "Logic" exactly when its variable name does not contain
      "constraint"; otherwise the substring test mislabels it as a constraint error. */
  lemma LogicKeyLabel(row: ErrorRow, p: Pending)
    ensures Label(ErrorKey(Logic, row), p) ==
      (if Contains(row.ctx.variable, "constraint") then "Constraint" else "Logic") + " error for " + p.errorData.ctx.variable
  {
    var x := IntText(row.ctx.uniqueId) + "_" + row.ctx.variable;
    assert ErrorKey(Logic, row) == "logic_" + x;
    LogicTagSkipped(x);
    IdSkipped(row.ctx.uniqueId, row.ctx.variable);
  }

  /** The ledger row written for one pending correction. */
  datatype CorrectionRecord = CorrectionRecord(
    errorType: string, username: string, supervisor: string, woreda: string, kebele: string,
    farmerName: string, phoneNo: string, subdate: string, uniqueId: int, variable: string,
    originalValue: Cell, referenceValue: Cell, correctValue: int, explanation: string,
    correctedBy: string, correctionDate: string, correctionTimestamp: string)

  /** The record of one pending entry: the row's own columns, the reported value as
      original value, the rule text (constraint) or Troster Value (logic) as
      reference value, and the entered value and explanation as they were typed. */
  function MakeRecord(p: Pending, enumerator: string, date: string, timestamp: string): (r: CorrectionRecord)
    ensures r.errorType == Tag(p.errorType)
    ensures r.uniqueId == p.errorData.ctx.uniqueId && r.variable == p.errorData.ctx.variable
    ensures r.username == p.errorData.ctx.username && r.farmerName == p.errorData.ctx.farmerName
    ensures r.originalValue == p.errorData.value && r.referenceValue == p.errorData.reference
    ensures r.correctValue == p.correctValue && r.explanation == p.explanation
    ensures r.supervisor == p.errorData.ctx.supervisor && r.woreda == p.errorData.ctx.woreda
    ensures r.kebele == p.errorData.ctx.kebele && r.phoneNo == p.errorData.ctx.phoneNo
    ensures r.subdate == p.errorData.ctx.subdate
    ensures r.correctedBy == enumerator && r.correctionDate == date && r.correctionTimestamp == timestamp
  {
    var c := p.errorData.ctx;
    CorrectionRecord(Tag(p.errorType), c.username, c.supervisor, c.woreda, c.kebele, c.farmerName, c.phoneNo, c.subdate,
                     c.uniqueId, c.variable, p.errorData.value, p.errorData.reference, p.correctValue,
                     p.explanation, enumerator, date, timestamp)
  }

  /** The records of the commit loop, one per key in iteration order. */
  function Records(keys: seq<string>, entries: map<string, Pending>, enumerator: string, date: string, timestamp: string): seq<CorrectionRecord>
    requires forall k :: k in keys ==> k in entries
  {
    if keys == [] then []
    else
      var k := keys[|keys| - 1];
      Records(keys[..|keys| - 1], entries, enumerator, date, timestamp) + [MakeRecord(entries[k], enumerator, date, timestamp)]
  }

  lemma {:induction false} RecordsAt(keys: seq<string>, entries: map<string, Pending>, enumerator: string, date: string, timestamp: string)
    requires forall k :: k in keys ==> k in entries
    ensures |Records(keys, entries, enumerator, date, timestamp)| == |keys|
    ensures forall i :: 0 <= i < |keys| ==>
      Records(keys, entries, enumerator, date, timestamp)[i] == MakeRecord(entries[keys[i]], enumerator, date, timestamp)
  {
    if keys != [] {
      var init := keys[..|keys| - 1];
      RecordsAt(init, entries, enumerator, date, timestamp);
      var r := Records(keys, entries, enumerator, date, timestamp);
      assert r == Records(init, entries, enumerator, date, timestamp) + [MakeRecord(entries[keys[|keys| - 1]], enumerator, date, timestamp)];
      forall i | 0 <= i < |keys| ensures r[i] == MakeRecord(entries[keys[i]], enumerator, date, timestamp) {
        if i < |init| {
          assert keys[i] == init[i];
        }
      }
    }
  }

  /** The commit writes exactly one record per pending entry, and each entry's record. */
  lemma OneRecordPerEntry(d: PendingMap, enumerator: string, date: string, timestamp: string)
    requires d.Wf()
    ensures |Records(d.order, d.entries, enumerator, date, timestamp)| == |d.order| == |d.entries|
    ensures forall k :: k in d.entries ==> exists i :: (0 <= i < |d.order| && d.order[i] == k
      && Records(d.order, d.entries, enumerator, date, timestamp)[i] == MakeRecord(d.entries[k], enumerator, date, timestamp))
  {
    RecordsAt(d.order, d.entries, enumerator, date, timestamp);
    PendingSize(d);
    forall k | k in d.entries
      ensures exists i :: (0 <= i < |d.order| && d.order[i] == k
        && Records(d.order, d.entries, enumerator, date, timestamp)[i] == MakeRecord(d.entries[k], enumerator, date, timestamp))
    {
      var i :| 0 <= i < |d.order| && d.order[i] == k;
    }
  }

  function Members(keys: seq<string>): set<string> {
    set k | k in keys
  }

  /** One more iteration of the commit loop: one more record, one more resolved key. */
  lemma CommitStep(keys: seq<string>, i: nat, entries: map<string, Pending>, enumerator: string, date: string, timestamp: string)
    requires i < |keys| && forall k :: k in keys ==> k in entries
    ensures Records(keys[..i + 1], entries, enumerator, date, timestamp)
      == Records(keys[..i], entries, enumerator, date, timestamp) + [MakeRecord(entries[keys[i]], enumerator, date, timestamp)]
    ensures Members(keys[..i + 1]) == Members(keys[..i]) + {keys[i]}
  {
    assert keys[..i + 1][..i] == keys[..i];
    assert keys[..i + 1] == keys[..i] + [keys[i]];
  }

  /** The loop of `validate_all_corrections`: walks the pending entries in
      iteration order, counting those with a non-blank explanation and
      labelling the others. */
  method Tally(keys: seq<string>, entries: map<string, Pending>) returns (completed: nat, missing: seq<string>)
    requires forall k :: k in keys ==> k in entries
    ensures completed == CountExplained(keys, entries)
    ensures missing == MissingLabels(keys, entries)
  {
    completed := 0;
    missing := [];
    var i := 0;
    while i < |keys|
      invariant 0 <= i <= |keys|
      invariant completed == CountExplained(keys[..i], entries)
      invariant missing == MissingLabels(keys[..i], entries)
    {
      ValidationStep(keys, i, entries);
      var p := entries[keys[i]];
      if NonBlank(p.explanation) {
        completed := completed + 1;
      } else {
        missing := missing + [Label(keys[i], p)];
      }
      i := i + 1;
    }
    assert keys[..i] == keys;
  }

  lemma MembersOfOrder(d: PendingMap)
    requires d.Wf()
    ensures Members(d.order) == d.entries.Keys
  {
  }

  /** What the save button leads to. */
  datatype SaveOutcome =
    | Rejected(validation: Validation)
    | NothingToSave
    | Written(records: seq<CorrectionRecord>, saved: bool)

  class CorrectionSession {
    var correctedErrors: set<string>
    var allCorrectionsData: PendingMap

    ghost predicate Valid()
      reads this
    {
      allCorrectionsData.Wf() && KeysMatchRows(allCorrectionsData.entries)
    }

    /** A new session: no resolved keys, no pending edits. */
    constructor ()
      ensures Valid()
      ensures correctedErrors == {} && allCorrectionsData == NoPending
    {
      correctedErrors := {};
      allCorrectionsData := NoPending;
    }

    /** `st.session_state.all_corrections_data[error_key] = {...}`. */
    method Store(key: string, entry: Pending)
      requires Valid()
      requires key == ErrorKey(entry.errorType, entry.errorData)
      modifies this
      ensures Valid()
      ensures allCorrectionsData == old(allCorrectionsData).Put(key, entry)
      ensures correctedErrors == old(correctedErrors)
    {
      allCorrectionsData := allCorrectionsData.Put(key, entry);
    }

    /** The inputs of one farmer's rows of one table, stored row by row. */
    method StoreRows(t: ErrorType, rows: seq<ErrorRow>, ui: Widgets) returns (ok: bool)
      requires Valid()
      modifies this
      ensures Valid()
      ensures var o := StoreItems(Tagged(t, rows), ui, old(allCorrectionsData));
        ok == o.Stored? && allCorrectionsData == o.d
      ensures correctedErrors == old(correctedErrors)
    {
      var j := 0;
      while j < |rows|
        invariant 0 <= j <= |rows|
        invariant Valid() && correctedErrors == old(correctedErrors)
        invariant StoreItems(Tagged(t, rows[..j]), ui, old(allCorrectionsData)) == Stored(allCorrectionsData)
      {
        var entry := EntryFor(t, rows[j], ui);
        if entry.None? {
          RowRaises(t, rows, j, ui, old(allCorrectionsData), allCorrectionsData);
          return false;
        }
        RowStored(t, rows, j, ui, old(allCorrectionsData), allCorrectionsData);
        Store(ErrorKey(t, rows[j]), entry.value);
        j := j + 1;
      }
      assert rows[..j] == rows;
      return true;
    }

    /** The render pass for the selected enumerator: every outstanding farmer,
        in ascending id order, each of its outstanding rows stores its inputs. */
    method Render(constraints: seq<ErrorRow>, logic: seq<ErrorRow>, enumerator: string, ui: Widgets) returns (ok: bool)
      requires Valid()
      modifies this
      ensures Valid()
      ensures var oc := Outstanding(constraints, Constraint, enumerator, old(correctedErrors));
        var ol := Outstanding(logic, Logic, enumerator, old(correctedErrors));
        var o := StoreItems(RenderItems(FarmerIds(oc, ol), oc, ol), ui, old(allCorrectionsData));
        ok == o.Stored? && allCorrectionsData == o.d
      ensures correctedErrors == old(correctedErrors)
    {
      var oc := Outstanding(constraints, Constraint, enumerator, correctedErrors);
      var ol := Outstanding(logic, Logic, enumerator, correctedErrors);
      var farmers := FarmerIds(oc, ol);
      ghost var d0 := allCorrectionsData;
      var i := 0;
      while i < |farmers|
        invariant 0 <= i <= |farmers|
        invariant Valid() && correctedErrors == old(correctedErrors)
        invariant StoreItems(RenderItems(farmers[..i], oc, ol), ui, d0) == Stored(allCorrectionsData)
      {
        RenderStep(farmers, i, oc, ol, ui, d0);
        ok := RenderFarmer(farmers[i], oc, ol, ui);
        if !ok {
          RenderStopsAtCrash(farmers, i, oc, ol, ui, d0);
          return;
        }
        i := i + 1;
      }
      assert farmers[..i] == farmers;
      ok := true;
    }

    /** One farmer's expander: its constraint rows, then its logic rows. */
    method RenderFarmer(f: int, oc: seq<ErrorRow>, ol: seq<ErrorRow>, ui: Widgets) returns (ok: bool)
      requires Valid()
      modifies this
      ensures Valid()
      ensures var o := StoreItems(FarmerItems(f, oc, ol), ui, old(allCorrectionsData));
        ok == o.Stored? && allCorrectionsData == o.d
      ensures correctedErrors == old(correctedErrors)
    {
      var fc := FarmerRows(oc, f);
      var fl := FarmerRows(ol, f);
      StoreItemsAppend(Tagged(Constraint, fc), Tagged(Logic, fl), ui, allCorrectionsData);
      ok := StoreRows(Constraint, fc, ui);
      if ok {
        ok := StoreRows(Logic, fl, ui);
      }
    }

    /** `validate_all_corrections()`: counts the pending entries with a
        non-blank explanation against the number of outstanding rows, and
        labels every entry whose explanation is blank. */
    method ValidateAll(constraints: seq<ErrorRow>, logic: seq<ErrorRow>, enumerator: string) returns (v: Validation)
      requires Valid()
      requires TotalOutstanding(constraints, logic, enumerator, correctedErrors) > 0
      ensures v == ValidationOf(allCorrectionsData, TotalOutstanding(constraints, logic, enumerator, correctedErrors))
    {
      var total := |Outstanding(constraints, Constraint, enumerator, correctedErrors)|
                 + |Outstanding(logic, Logic, enumerator, correctedErrors)|;
      var completed, missing := Tally(allCorrectionsData.order, allCorrectionsData.entries);
      v := Validation(completed == total, missing, completed, total);
    }

    /** The save button, shown only while the enumerator has outstanding
        errors: validation first (an invalid result changes nothing); then
        one record per pending entry, each key marked resolved as its record
        is built; the pending dict is cleared only if the write succeeded. */
    method Save(constraints: seq<ErrorRow>, logic: seq<ErrorRow>, enumerator: string,
                date: string, timestamp: string, saved: bool) returns (outcome: SaveOutcome)
      requires Valid()
      requires TotalOutstanding(constraints, logic, enumerator, correctedErrors) > 0
      modifies this
      ensures Valid()
      ensures var v := ValidationOf(old(allCorrectionsData), TotalOutstanding(constraints, logic, enumerator, old(correctedErrors)));
        !v.valid ==> outcome == Rejected(v) && correctedErrors == old(correctedErrors) && allCorrectionsData == old(allCorrectionsData)
      ensures var v := ValidationOf(old(allCorrectionsData), TotalOutstanding(constraints, logic, enumerator, old(correctedErrors)));
        v.valid && old(allCorrectionsData).order != [] ==>
          && outcome == Written(Records(old(allCorrectionsData).order, old(allCorrectionsData).entries, enumerator, date, timestamp), saved)
          && correctedErrors == old(correctedErrors) + old(allCorrectionsData).entries.Keys
          && allCorrectionsData == if saved then NoPending else old(allCorrectionsData)
    {
      var v := ValidateAll(constraints, logic, enumerator);
      if !v.valid {
        return Rejected(v);
      }
      ValidSaveHasEntries(allCorrectionsData, v.total);
      outcome := Commit(enumerator, date, timestamp, saved);
    }

    /** The commit after a valid validation: one record per pending entry, in
        iteration order, each key added to the resolved set as its record is
        built; `saved` is what writing the records to the ledger returned. */
    method Commit(enumerator: string, date: string, timestamp: string, saved: bool) returns (outcome: SaveOutcome)
      requires Valid()
      modifies this
      ensures Valid()
      ensures old(allCorrectionsData).order == [] ==>
        outcome == NothingToSave && correctedErrors == old(correctedErrors) && allCorrectionsData == old(allCorrectionsData)
      ensures old(allCorrectionsData).order != [] ==>
        && outcome == Written(Records(old(allCorrectionsData).order, old(allCorrectionsData).entries, enumerator, date, timestamp), saved)
        && correctedErrors == old(correctedErrors) + old(allCorrectionsData).entries.Keys
        && allCorrectionsData == if saved then NoPending else old(allCorrectionsData)
    {
      var keys := allCorrectionsData.order;
      var entries := allCorrectionsData.entries;
      MembersOfOrder(allCorrectionsData);
      var corrections := RecordAndResolve(keys, entries, enumerator, date, timestamp);
      if keys != [] {
        if saved {
          allCorrectionsData := NoPending;
        }
        outcome := Written(corrections, saved);
      } else {
        outcome := NothingToSave;
      }
    }

    /** The commit loop: a record for each key in turn, the key added to the resolved set right after. */
    method RecordAndResolve(keys: seq<string>, entries: map<string, Pending>, enumerator: string, date: string, timestamp: string)
      returns (corrections: seq<CorrectionRecord>)
      requires forall k :: k in keys ==> k in entries
      modifies this
      ensures corrections == Records(keys, entries, enumerator, date, timestamp)
      ensures correctedErrors == old(correctedErrors) + Members(keys)
      ensures allCorrectionsData == old(allCorrectionsData)
    {
      corrections := [];
      var i := 0;
      while i < |keys|
        invariant 0 <= i <= |keys|
        invariant allCorrectionsData == old(allCorrectionsData)
        invariant corrections == Records(keys[..i], entries, enumerator, date, timestamp)
        invariant correctedErrors == old(correctedErrors) + Members(keys[..i])
      {
        CommitStep(keys, i, entries, enumerator, date, timestamp);
        corrections := corrections + [MakeRecord(entries[keys[i]], enumerator, date, timestamp)];
        correctedErrors := correctedErrors + {keys[i]};
        i := i + 1;
      }
      assert keys[..i] == keys;
    }
  }

  lemma RenderStep(farmers: seq<int>, i: nat, oc: seq<ErrorRow>, ol: seq<ErrorRow>, ui: Widgets, d0: PendingMap)
    requires i < |farmers|
    requires StoreItems(RenderItems(farmers[..i], oc, ol), ui, d0).Stored?
    ensures StoreItems(RenderItems(farmers[..i + 1], oc, ol), ui, d0)
      == StoreItems(FarmerItems(farmers[i], oc, ol), ui, StoreItems(RenderItems(farmers[..i], oc, ol), ui, d0).d)
  {
    assert farmers[..i + 1][..i] == farmers[..i];
    StoreItemsAppend(RenderItems(farmers[..i], oc, ol), FarmerItems(farmers[i], oc, ol), ui, d0);
  }

  lemma RenderStopsAtCrash(farmers: seq<int>, i: nat, oc: seq<ErrorRow>, ol: seq<ErrorRow>, ui: Widgets, d0: PendingMap)
    requires i < |farmers|
    requires StoreItems(RenderItems(farmers[..i + 1], oc, ol), ui, d0).Crashed?
    ensures StoreItems(RenderItems(farmers, oc, ol), ui, d0) == StoreItems(RenderItems(farmers[..i + 1], oc, ol), ui, d0)
  {
    RenderItemsPrefix(farmers, i + 1, oc, ol);
    var all := RenderItems(farmers, oc, ol);
    var pre := RenderItems(farmers[..i + 1], oc, ol);
    assert all == pre + all[|pre|..];
    StoreItemsAppend(pre, all[|pre|..], ui, d0);
  }

  /** The items of one farmer: its constraint rows, then its logic rows. */
  function FarmerItems(f: int, constraints: seq<ErrorRow>, logic: seq<ErrorRow>): seq<Item> {
    Tagged(Constraint, FarmerRows(constraints, f)) + Tagged(Logic, FarmerRows(logic, f))
  }

  lemma {:induction false} RenderItemsPrefix(farmers: seq<int>, n: nat, oc: seq<ErrorRow>, ol: seq<ErrorRow>)
    requires n <= |farmers|
    ensures var pre := RenderItems(farmers[..n], oc, ol);
      |pre| <= |RenderItems(farmers, oc, ol)| && RenderItems(farmers, oc, ol)[..|pre|] == pre
    decreases |farmers| - n
  {
    if n == |farmers| {
      assert farmers[..n] == farmers;
    } else {
      RenderItemsPrefix(farmers[..|farmers| - 1], n, oc, ol);
      RenderItemsPrefixStep(farmers, n, oc, ol);
    }
  }

  lemma RenderItemsPrefixStep(farmers: seq<int>, n: nat, oc: seq<ErrorRow>, ol: seq<ErrorRow>)
    requires n < |farmers|
    requires var init := farmers[..|farmers| - 1];
      var pre := RenderItems(init[..n], oc, ol);
      |pre| <= |RenderItems(init, oc, ol)| && RenderItems(init, oc, ol)[..|pre|] == pre
    ensures var pre := RenderItems(farmers[..n], oc, ol);
      |pre| <= |RenderItems(farmers, oc, ol)| && RenderItems(farmers, oc, ol)[..|pre|] == pre
  {
    var init := farmers[..|farmers| - 1];
    assert init[..n] == farmers[..n];
    var mid := RenderItems(init, oc, ol);
    var all := RenderItems(farmers, oc, ol);
    assert all == mid + FarmerItems(farmers[|farmers| - 1], oc, ol);
  }

  /** A store pass goes through exactly when no visited row raises. */
  lemma {:induction false} StoreItemsStoredIff(items: seq<Item>, ui: Widgets, d: PendingMap)
    ensures StoreItems(items, ui, d).Stored? <==> NoneRaises(items, ui)
  {
    if items != [] {
      var init := items[..|items| - 1];
      var last := items[|items| - 1];
      StoreItemsStoredIff(init, ui, d);
      StoreItemsLast(items, ui, d);
      StepStoredIff(StoreItems(init, ui, d), last, ui);
      NoneRaisesLast(items, ui);
    }
  }

  lemma StoreItemsLast(items: seq<Item>, ui: Widgets, d: PendingMap)
    requires items != []
    ensures StoreItems(items, ui, d) == Step(StoreItems(items[..|items| - 1], ui, d), items[|items| - 1], ui)
  {
  }

  /** No item of `items` raises when rendered. */
  predicate NoneRaises(items: seq<Item>, ui: Widgets) {
    forall it :: it in items ==> EntryFor(it.t, it.row, ui).Some?
  }

  lemma NoneRaisesLast(items: seq<Item>, ui: Widgets)
    requires items != []
    ensures NoneRaises(items, ui)
      <==> NoneRaises(items[..|items| - 1], ui) && EntryFor(items[|items| - 1].t, items[|items| - 1].row, ui).Some?
  {
    var init, last := items[..|items| - 1], items[|items| - 1];
    assert items == init + [last];
    assert forall it :: it in items <==> it in init || it == last;
  }

  lemma StepStoredIff(o: StoreOutcome, it: Item, ui: Widgets)
    ensures Step(o, it, ui).Stored? <==> o.Stored? && EntryFor(it.t, it.row, ui).Some?
  {
  }

  /** Rendering raises exactly when some outstanding row of the enumerator does
      not render: a constraint row whose start falls outside its bounds, or a logic
      row whose numbers `int()` rejects or whose reported value is negative. */
  lemma RenderSucceedsIff(oc: seq<ErrorRow>, ol: seq<ErrorRow>, ui: Widgets, d: PendingMap)
    ensures StoreItems(RenderItems(FarmerIds(oc, ol), oc, ol), ui, d).Stored?
      <==> (forall r :: r in oc ==> RowRenders(Constraint, r)) && (forall r :: r in ol ==> RowRenders(Logic, r))
  {
    var farmers := FarmerIds(oc, ol);
    var items := RenderItems(farmers, oc, ol);
    StoreItemsStoredIff(items, ui, d);
    forall it: Item ensures EntryFor(it.t, it.row, ui).Some? <==> RowRenders(it.t, it.row) {
      EntryForMeaning(it.t, it.row, ui);
    }
    forall r | r in oc ensures Item(Constraint, r) in items {
      var i :| 0 <= i < |oc| && oc[i] == r;
      assert HasFarmer(oc, r.ctx.uniqueId);
      RenderItemsMembers(farmers, oc, ol, Item(Constraint, r));
    }
    forall r | r in ol ensures Item(Logic, r) in items {
      var i :| 0 <= i < |ol| && ol[i] == r;
      assert HasFarmer(ol, r.ctx.uniqueId);
      RenderItemsMembers(farmers, oc, ol, Item(Logic, r));
    }
    forall it | it in items ensures (it.t == Constraint && it.row in oc) || (it.t == Logic && it.row in ol) {
      RenderItemsMembers(farmers, oc, ol, it);
    }
  }

  /** The table invariant: no row appears twice, and no two rows of the same
      enumerator share a unique_id and variable. */
  ghost predicate IdentitiesUnique(rows: seq<ErrorRow>) {
    && (forall r :: multiset(rows)[r] <= 1)
    && (forall a, b :: a in rows && b in rows && a != b && a.ctx.username == b.ctx.username ==>
          a.ctx.uniqueId != b.ctx.uniqueId || a.ctx.variable != b.ctx.variable)
  }

  function RowKeys(t: ErrorType, rows: seq<ErrorRow>): set<string> {
    set r | r in rows :: ErrorKey(t, r)
  }

  lemma NoRepeatTail(rows: seq<ErrorRow>)
    requires rows != [] && forall r :: multiset(rows)[r] <= 1
    ensures rows[0] !in rows[1..]
    ensures forall r :: multiset(rows[1..])[r] <= 1
  {
    assert rows == [rows[0]] + rows[1..];
    assert multiset(rows) == multiset([rows[0]]) + multiset(rows[1..]);
    assert multiset(rows)[rows[0]] == 1 + multiset(rows[1..])[rows[0]];
    assert multiset(rows[1..])[rows[0]] == 0;
    assert forall r :: multiset(rows[1..])[r] <= multiset(rows)[r];
  }

  lemma RowKeysCons(t: ErrorType, rows: seq<ErrorRow>)
    requires rows != []
    ensures RowKeys(t, rows) == {ErrorKey(t, rows[0])} + RowKeys(t, rows[1..])
  {
    assert forall r :: r in rows <==> r == rows[0] || r in rows[1..];
  }

  lemma {:induction false} RowKeysSize(t: ErrorType, rows: seq<ErrorRow>)
    requires forall r :: multiset(rows)[r] <= 1
    requires forall a, b :: a in rows && b in rows && a != b ==>
      a.ctx.uniqueId != b.ctx.uniqueId || a.ctx.variable != b.ctx.variable
    ensures |RowKeys(t, rows)| == |rows|
  {
    if rows != [] {
      var x := rows[0];
      var rest := rows[1..];
      NoRepeatTail(rows);
      assert forall r :: r in rest ==> r in rows;
      RowKeysSize(t, rest);
      forall y | y in rest ensures ErrorKey(t, y) != ErrorKey(t, x) {
        ErrorKeyInjective(t, y, t, x);
      }
      RowKeysCons(t, rows);
    }
  }

  /** Outstanding rows inherit the table invariant, so they have as many keys as rows. */
  lemma OutstandingKeysSize(rows: seq<ErrorRow>, t: ErrorType, enumerator: string, resolved: set<string>)
    requires IdentitiesUnique(rows)
    ensures |RowKeys(t, Outstanding(rows, t, enumerator, resolved))| == |Outstanding(rows, t, enumerator, resolved)|
  {
    var out := Outstanding(rows, t, enumerator, resolved);
    var owned := Filter(rows, OwnedBy(enumerator));
    FilterCount(rows, OwnedBy(enumerator));
    FilterCount(owned, Unresolved(t, resolved));
    assert forall r :: multiset(owned)[r] <= multiset(rows)[r];
    assert forall r :: multiset(out)[r] <= multiset(owned)[r];
    RowKeysSize(t, out);
  }

  lemma TablesKeysDisjoint(constraints: seq<ErrorRow>, logic: seq<ErrorRow>)
    ensures RowKeys(Constraint, constraints) !! RowKeys(Logic, logic)
  {
    assert forall k :: k in RowKeys(Constraint, constraints) ==> k[0] == 'c';
    assert forall k :: k in RowKeys(Logic, logic) ==> k[0] == 'l';
  }

  /** A render from an empty dict in which no row raises stores one entry per outstanding row. */
  lemma FreshRenderKeys(oc: seq<ErrorRow>, ol: seq<ErrorRow>, ui: Widgets)
    requires StoreItems(RenderItems(FarmerIds(oc, ol), oc, ol), ui, NoPending).Stored?
    ensures StoreItems(RenderItems(FarmerIds(oc, ol), oc, ol), ui, NoPending).d.entries.Keys
      == RowKeys(Constraint, oc) + RowKeys(Logic, ol)
  {
    StoreItemsEffect(RenderItems(FarmerIds(oc, ol), oc, ol), ui, NoPending);
    RenderKeys(oc, ol);
    TablesKeysDisjoint(oc, ol);
  }

  /** A first render of an enumerator's errors (empty dict, no row raising)
      leaves one entry per outstanding row, under that row's key; the save
      is then valid exactly when every one of them has a non-blank
      explanation, which is exactly when no label is reported missing. */
  lemma FreshRenderValidation(constraints: seq<ErrorRow>, logic: seq<ErrorRow>, enumerator: string,
                              resolved: set<string>, ui: Widgets)
    requires IdentitiesUnique(constraints) && IdentitiesUnique(logic)
    requires forall r :: r in Outstanding(constraints, Constraint, enumerator, resolved) ==> RowRenders(Constraint, r)
    requires forall r :: r in Outstanding(logic, Logic, enumerator, resolved) ==> RowRenders(Logic, r)
    ensures var oc := Outstanding(constraints, Constraint, enumerator, resolved);
      var ol := Outstanding(logic, Logic, enumerator, resolved);
      var o := StoreItems(RenderItems(FarmerIds(oc, ol), oc, ol), ui, NoPending);
      var total := TotalOutstanding(constraints, logic, enumerator, resolved);
      && o.Stored?
      && o.d.Wf()
      && o.d.entries.Keys == OutstandingKeys(oc, ol)
      && |o.d.entries| == total
      && (ValidationOf(o.d, total).valid <==> forall k :: k in o.d.entries ==> NonBlank(o.d.entries[k].explanation))
      && (ValidationOf(o.d, total).valid <==> ValidationOf(o.d, total).missing == [])
  {
    var oc := Outstanding(constraints, Constraint, enumerator, resolved);
    var ol := Outstanding(logic, Logic, enumerator, resolved);
    var o := StoreItems(RenderItems(FarmerIds(oc, ol), oc, ol), ui, NoPending);
    var total := TotalOutstanding(constraints, logic, enumerator, resolved);
    RenderSucceedsIff(oc, ol, ui, NoPending);
    StoreItemsWf(RenderItems(FarmerIds(oc, ol), oc, ol), ui, NoPending);
    FreshRenderKeys(oc, ol, ui);
    TablesKeysDisjoint(oc, ol);
    OutstandingKeysSize(constraints, Constraint, enumerator, resolved);
    OutstandingKeysSize(logic, Logic, enumerator, resolved);
    var keys := o.d.entries.Keys;
    assert |keys| == |RowKeys(Constraint, oc)| + |RowKeys(Logic, ol)|;
    assert |o.d.entries| == |keys|;
    ValidIffNothingMissing(o.d, total);
  }

  /** Committing every key a render stored resolves all of the enumerator's
      errors: nothing is outstanding afterwards and the farmer list is empty. */
  lemma CommitResolvesRendered(constraints: seq<ErrorRow>, logic: seq<ErrorRow>, enumerator: string,
                               resolved: set<string>, committed: set<string>)
    requires OutstandingKeys(Outstanding(constraints, Constraint, enumerator, resolved),
                             Outstanding(logic, Logic, enumerator, resolved)) <= committed
    ensures Outstanding(constraints, Constraint, enumerator, resolved + committed) == []
    ensures Outstanding(logic, Logic, enumerator, resolved + committed) == []
    ensures FarmerIds(Outstanding(constraints, Constraint, enumerator, resolved + committed),
                      Outstanding(logic, Logic, enumerator, resolved + committed)) == []
  {
    OutstandingEmptyOnceAllResolved(constraints, Constraint, enumerator, resolved, committed);
    OutstandingEmptyOnceAllResolved(logic, Logic, enumerator, resolved, committed);
    assert FarmerIds([], []) == [] by {
      assert UniqueIds([]) + UniqueIds([]) == [];
    }
  }

  /** Keys carry no username: resolving one enumerator's row also hides
      another enumerator's row with the same unique_id and variable. */
  lemma ResolvedKeyIsShared(rows: seq<ErrorRow>, t: ErrorType, a: ErrorRow, b: ErrorRow, resolved: set<string>)
    requires a.ctx.uniqueId == b.ctx.uniqueId && a.ctx.variable == b.ctx.variable
    ensures b !in Outstanding(rows, t, b.ctx.username, resolved + {ErrorKey(t, a)})
  {
  }
}

=== FILE: tables.dfy ===
/** The two error tables (constraints.csv, logic.csv) as already-decoded rows,
    the string error keys that identify a row, and the per-enumerator view the
    app derives from them: the outstanding rows, the farmer list and the name
    and phone shown for each farmer. */
module Tables {
  import opened Text
  import opened Seqs

  /** One pandas cell. `Number` is an integral numeric cell, `Missing` is NaN. */
  datatype Cell = Number(n: int) | Missing | Str(text: string)

  /** `int(cell)`; None where Python raises. */
  function AsInt(c: Cell): (r: Option<int>)
    ensures c.Missing? ==> r.None?
  {
    match c
    case Number(n) => Some(n)
    case Missing => None
    case Str(s) => PyInt(s)
  }

  /** `str(cell)`. */
  function CellText(c: Cell): string {
    match c
    case Number(n) => IntText(n)
    case Missing => "nan"
    case Str(s) => s
  }

  /** The columns both tables share. */
  datatype Context = Context(
    uniqueId: int, variable: string, username: string, supervisor: string, woreda: string,
    kebele: string, farmerName: string, phoneNo: string, subdate: string)

  /** One row of either table. `value` is the reported value; `reference` is the
      `constraint` column (the rule text) of the constraint table and the
      `Troster Value` column of the logic table. */
  datatype ErrorRow = ErrorRow(ctx: Context, value: Cell, reference: Cell)

  /** A numeric cell read back from its text is the same number: `int(str(n)) == n`. */
  lemma CellTextRoundTrip(c: Cell)
    requires c.Number?
    ensures AsInt(Str(CellText(c))) == AsInt(c) == Some(c.n)
  {
    IntTextRoundTrip(c.n);
  }

  datatype ErrorType = Constraint | Logic

  function Tag(t: ErrorType): string {
    match t
    case Constraint => "constraint"
    case Logic => "logic"
  }

  /** `f"constraint_{unique_id}_{variable}"` or `f"logic_{unique_id}_{variable}"`. */
  function ErrorKey(t: ErrorType, row: ErrorRow): string {
    Tag(t) + "_" + IntText(row.ctx.uniqueId) + "_" + row.ctx.variable
  }

  /** Index of the first underscore, or the length when there is none. */
  function FirstUnderscore(s: string): (k: nat)
    ensures k <= |s|
  {
    if s == [] || s[0] == '_' then 0 else 1 + FirstUnderscore(s[1..])
  }

  lemma {:induction false} FirstUnderscoreAfter(a: string, v: string)
    requires '_' !in a
    ensures FirstUnderscore(a + "_" + v) == |a|
  {
    if a != [] {
      assert (a + "_" + v)[1..] == a[1..] + "_" + v;
      assert a[0] in a;
      FirstUnderscoreAfter(a[1..], v);
    }
  }

  lemma SplitAtUnderscore(a1: string, v1: string, a2: string, v2: string)
    requires '_' !in a1 && '_' !in a2
    requires a1 + "_" + v1 == a2 + "_" + v2
    ensures a1 == a2 && v1 == v2
  {
    FirstUnderscoreAfter(a1, v1);
    FirstUnderscoreAfter(a2, v2);
    var s := a1 + "_" + v1;
    assert a1 == s[..|a1|] && v1 == s[|a1| + 1..];
    assert a2 == s[..|a2|] && v2 == s[|a2| + 1..];
  }

  lemma ErrorKeyParts(t: ErrorType, row: ErrorRow)
    ensures var k := ErrorKey(t, row);
      && |k| > |Tag(t)|
      && k[0] == (if t == Constraint then 'c' else 'l')
      && k[|Tag(t)| + 1..] == IntText(row.ctx.uniqueId) + "_" + row.ctx.variable
  {
  }

  /** Distinct rows get distinct keys: the key determines the table, the
      unique_id and the variable, because `str(int)` has no underscore. */
  lemma ErrorKeyInjective(t1: ErrorType, r1: ErrorRow, t2: ErrorType, r2: ErrorRow)
    ensures ErrorKey(t1, r1) == ErrorKey(t2, r2) ==>
      t1 == t2 && r1.ctx.uniqueId == r2.ctx.uniqueId && r1.ctx.variable == r2.ctx.variable
  {
    if ErrorKey(t1, r1) == ErrorKey(t2, r2) {
      ErrorKeyParts(t1, r1);
      ErrorKeyParts(t2, r2);
      assert t1 == t2;
      IntTextHasNoUnderscore(r1.ctx.uniqueId);
      IntTextHasNoUnderscore(r2.ctx.uniqueId);
      SplitAtUnderscore(IntText(r1.ctx.uniqueId), r1.ctx.variable, IntText(r2.ctx.uniqueId), r2.ctx.variable);
      IntTextInjective(r1.ctx.uniqueId, r2.ctx.uniqueId);
    }
  }

  /** Row mask `df['username'] == enumerator`. */
  function OwnedBy(enumerator: string): ErrorRow -> bool {
    (row: ErrorRow) => row.ctx.username == enumerator
  }

  /** Row mask `~df.apply(lambda x: key(x) in corrected_errors)`. */
  function Unresolved(t: ErrorType, resolved: set<string>): ErrorRow -> bool {
    (row: ErrorRow) => ErrorKey(t, row) !in resolved
  }

  /** Row mask `df['unique_id'] == farmer_id`. */
  function OfFarmer(farmer: int): ErrorRow -> bool {
    (row: ErrorRow) => row.ctx.uniqueId == farmer
  }

  /** The enumerator's rows of one table whose key is not yet resolved, in table order. */
  function Outstanding(rows: seq<ErrorRow>, t: ErrorType, enumerator: string, resolved: set<string>): (r: seq<ErrorRow>)
    ensures forall row :: row in r <==> row in rows && row.ctx.username == enumerator && ErrorKey(t, row) !in resolved
    ensures |r| <= |rows|
  {
    Filter(Filter(rows, OwnedBy(enumerator)), Unresolved(t, resolved))
  }

  /** Resolving more keys only removes the rows carrying those keys: filtering
      with `resolved + more` equals filtering the current outstanding rows by `more`. */
  lemma OutstandingAfterResolving(rows: seq<ErrorRow>, t: ErrorType, enumerator: string, resolved: set<string>, more: set<string>)
    ensures Outstanding(rows, t, enumerator, resolved + more) == Filter(Outstanding(rows, t, enumerator, resolved), Unresolved(t, more))
  {
    var owned := Filter(rows, OwnedBy(enumerator));
    FilterTwice(owned, Unresolved(t, resolved), Unresolved(t, more), Unresolved(t, resolved + more));
  }

  /** Once every outstanding key is resolved, nothing of that table is outstanding. */
  lemma OutstandingEmptyOnceAllResolved(rows: seq<ErrorRow>, t: ErrorType, enumerator: string, resolved: set<string>, more: set<string>)
    requires forall row :: row in Outstanding(rows, t, enumerator, resolved) ==> ErrorKey(t, row) in more
    ensures Outstanding(rows, t, enumerator, resolved + more) == []
  {
    OutstandingAfterResolving(rows, t, enumerator, resolved, more);
    FilterNone(Outstanding(rows, t, enumerator, resolved), Unresolved(t, more));
  }

  predicate HasFarmer(rows: seq<ErrorRow>, farmer: int) {
    exists i :: 0 <= i < |rows| && rows[i].ctx.uniqueId == farmer
  }

  /** The `unique_id` column of a table: its values are exactly the farmers having a row. */
  function UniqueIds(rows: seq<ErrorRow>): (ids: seq<int>)
    ensures forall f :: f in ids <==> HasFarmer(rows, f)
  {
    var ids := seq(|rows|, i requires 0 <= i < |rows| => rows[i].ctx.uniqueId);
    assert forall f :: f in ids <==> HasFarmer(rows, f) by {
      forall f ensures f in ids <==> HasFarmer(rows, f) {
        if f in ids {
          var i :| 0 <= i < |ids| && ids[i] == f;
        }
        if HasFarmer(rows, f) {
          var i :| 0 <= i < |rows| && rows[i].ctx.uniqueId == f;
          assert ids[i] == f;
        }
      }
    }
    ids
  }

  /** `sorted(set(constraint ids) | set(logic ids))`: every farmer with an outstanding
      row in either table, once, in ascending order. */
  function FarmerIds(constraints: seq<ErrorRow>, logic: seq<ErrorRow>): (r: seq<int>)
    ensures StrictlyIncreasing(r)
    ensures forall f :: f in r <==> HasFarmer(constraints, f) || HasFarmer(logic, f)
  {
    var ids := UniqueIds(constraints) + UniqueIds(logic);
    assert forall f :: f in ids <==> f in UniqueIds(constraints) || f in UniqueIds(logic);
    SortedDistinct(ids)
  }

  /** A farmer's rows of one table (`df[df['unique_id'] == farmer_id]`). */
  function FarmerRows(rows: seq<ErrorRow>, farmer: int): (r: seq<ErrorRow>)
    ensures forall row :: row in r <==> row in rows && row.ctx.uniqueId == farmer
  {
    Filter(rows, OfFarmer(farmer))
  }

  /** Every farmer in the list has at least one outstanding row, so the
      per-farmer `total_errors > 0` test always passes. */
  lemma ListedFarmerHasRows(constraints: seq<ErrorRow>, logic: seq<ErrorRow>, farmer: int)
    requires farmer in FarmerIds(constraints, logic)
    ensures |FarmerRows(constraints, farmer)| + |FarmerRows(logic, farmer)| > 0
  {
    if HasFarmer(constraints, farmer) {
      var i :| 0 <= i < |constraints| && constraints[i].ctx.uniqueId == farmer;
      assert constraints[i] in FarmerRows(constraints, farmer);
    } else {
      var i :| 0 <= i < |logic| && logic[i].ctx.uniqueId == farmer;
      assert logic[i] in FarmerRows(logic, farmer);
    }
  }

  /** `rows[i]` is the farmer's first row in `rows`. */
  predicate FirstOfFarmer(rows: seq<ErrorRow>, farmer: int, i: int) {
    IsFirst(rows, OfFarmer(farmer), i)
  }

  /** The name and phone shown for a farmer: from the farmer's first
      constraint row, else from the first logic row, else empty. */
  function FarmerContact(farmer: int, constraints: seq<ErrorRow>, logic: seq<ErrorRow>): (r: (string, string))
    ensures HasFarmer(constraints, farmer) ==>
      exists i :: FirstOfFarmer(constraints, farmer, i) && r == (constraints[i].ctx.farmerName, constraints[i].ctx.phoneNo)
    ensures !HasFarmer(constraints, farmer) && HasFarmer(logic, farmer) ==>
      exists i :: FirstOfFarmer(logic, farmer, i) && r == (logic[i].ctx.farmerName, logic[i].ctx.phoneNo)
    ensures !HasFarmer(constraints, farmer) && !HasFarmer(logic, farmer) ==> r == ("", "")
  {
    var fc := FarmerRows(constraints, farmer);
    var fl := FarmerRows(logic, farmer);
    if |fc| > 0 then
      FilterHead(constraints, OfFarmer(farmer));
      (fc[0].ctx.farmerName, fc[0].ctx.phoneNo)
    else if |fl| > 0 then
      FilterHead(logic, OfFarmer(farmer));
      assert !HasFarmer(constraints, farmer) by {
        forall i | 0 <= i < |constraints| ensures constraints[i].ctx.uniqueId != farmer {
          assert constraints[i] in constraints;
        }
      }
      (fl[0].ctx.farmerName, fl[0].ctx.phoneNo)
    else
      assert !HasFarmer(constraints, farmer) by {
        forall i | 0 <= i < |constraints| ensures constraints[i].ctx.uniqueId != farmer {
          assert constraints[i] in constraints;
        }
      }
      assert !HasFarmer(logic, farmer) by {
        forall i | 0 <= i < |logic| ensures logic[i].ctx.uniqueId != farmer {
          assert logic[i] in logic;
        }
      }
      ("", "")
  }
}

=== FILE: text.dfy ===
/** The part of Python's `str` behaviour that the correction app relies on:
    `lower()` and `in` for keyword tests, `strip()` for blank explanations,
    `re.findall(r'\d+', ...)` for numbers in a rule, `int(...)` on text cells
    and `str(int)` inside error keys. Characters are Unicode scalar values;
    only ASCII letters are case-folded and only ASCII digits are digits. */
module Text {

  datatype Option<T> = None | Some(value: T)

  predicate IsDigit(c: char) { '0' <= c <= '9' }

  predicate AllDigits(s: string) { forall i :: 0 <= i < |s| ==> IsDigit(s[i]) }

  /** Python's `str.isspace`, the test `str.strip()` uses when given no argument. */
  predicate IsSpace(c: char) {
    c == ' ' || '\t' <= c <= '\r' || '\U{1c}' <= c <= '\U{1f}' || c == '\U{85}' || c == '\U{a0}'
    || c == '\U{1680}' || '\U{2000}' <= c <= '\U{200a}' || c == '\U{2028}' || c == '\U{2029}'
    || c == '\U{202f}' || c == '\U{205f}' || c == '\U{3000}'
  }

  function LowerChar(c: char): char {
    if 'A' <= c <= 'Z' then (c as int + 32) as char else c
  }

  /** `s.lower()` restricted to ASCII letters. */
  function Lower(s: string): (r: string)
    ensures |r| == |s|
  {
    seq(|s|, i requires 0 <= i < |s| => LowerChar(s[i]))
  }

  predicate StartsWith(s: string, p: string) {
    |p| <= |s| && s[..|p|] == p
  }

  /** Python's substring test `p in s`. */
  predicate Contains(s: string, p: string)
    decreases |s|
  {
    StartsWith(s, p) || (s != [] && Contains(s[1..], p))
  }

  /** Number of leading whitespace characters. */
  function LeadingSpaces(s: string): (k: nat)
    ensures k <= |s|
    ensures forall i :: 0 <= i < k ==> IsSpace(s[i])
    ensures k == |s| || !IsSpace(s[k])
  {
    if s != [] && IsSpace(s[0]) then 1 + LeadingSpaces(s[1..]) else 0
  }

  /** End of the content of `s` when whitespace is scanned from the right, never below `lo`. */
  function ContentEnd(s: string, lo: nat): (j: nat)
    requires lo <= |s|
    ensures lo <= j <= |s|
    ensures forall i :: j <= i < |s| ==> IsSpace(s[i])
    ensures j == lo || !IsSpace(s[j - 1])
    decreases |s|
  {
    if |s| == lo || !IsSpace(s[|s| - 1]) then |s| else ContentEnd(s[..|s| - 1], lo)
  }

  /** `s.strip()`: the text without its leading and trailing whitespace. */
  function Strip(s: string): (r: string)
    ensures |r| <= |s|
    ensures r == [] <==> forall i :: 0 <= i < |s| ==> IsSpace(s[i])
    ensures r != [] ==> !IsSpace(r[0]) && !IsSpace(r[|r| - 1])
  {
    var i := LeadingSpaces(s);
    var j := ContentEnd(s, i);
    assert i < |s| ==> j > i;
    s[i..j]
  }

  /** Where the `k`-th character of `strip()` sits in the text. */
  lemma StripIndex(s: string, k: nat) returns (i: nat)
    requires k < |Strip(s)|
    ensures i < |s| && s[i] == Strip(s)[k]
  {
    i := LeadingSpaces(s) + k;
  }

  /** What `strip()` keeps is the text between its leading and its trailing whitespace. */
  lemma StripIsInnerSlice(s: string)
    ensures exists i, j :: (0 <= i <= j <= |s| && Strip(s) == s[i..j]
      && (forall k :: 0 <= k < i ==> IsSpace(s[k])) && (forall k :: j <= k < |s| ==> IsSpace(s[k])))
  {
    var i := LeadingSpaces(s);
    var j := ContentEnd(s, i);
    assert Strip(s) == s[i..j];
  }

  /** `bool(s) and bool(s.strip())`: the explanation test of the save validation. */
  predicate NonBlank(s: string) { Strip(s) != [] }

  /** Length of the longest all-digit prefix. */
  function DigitPrefix(s: string): (n: nat)
    ensures n <= |s|
    ensures forall i :: 0 <= i < n ==> IsDigit(s[i])
    ensures n == |s| || !IsDigit(s[n])
  {
    if s != [] && IsDigit(s[0]) then 1 + DigitPrefix(s[1..]) else 0
  }

  /** `int(d)` for a string of ASCII digits (leading zeros allowed). */
  function DecimalValue(d: string): nat
    requires AllDigits(d)
  {
    if d == [] then 0 else 10 * DecimalValue(d[..|d| - 1]) + (d[|d| - 1] as int - '0' as int)
  }

  /** `re.findall(r'\d+', s)`: the maximal runs of digits, left to right. */
  function DigitRuns(s: string): seq<string>
    decreases |s|
  {
    if s == [] then []
    else if !IsDigit(s[0]) then DigitRuns(s[1..])
    else
      var n := DigitPrefix(s);
      [s[..n]] + DigitRuns(s[n..])
  }

  /** There is a run exactly when the text has a digit, and every run is a non-empty string of digits. */
  lemma {:induction false} DigitRunsShape(s: string)
    ensures DigitRuns(s) == [] <==> forall i :: 0 <= i < |s| ==> !IsDigit(s[i])
    ensures forall k :: 0 <= k < |DigitRuns(s)| ==> DigitRuns(s)[k] != [] && AllDigits(DigitRuns(s)[k])
    decreases |s|
  {
    if s == [] {
    } else if !IsDigit(s[0]) {
      DigitRunsShape(s[1..]);
      assert forall i :: 1 <= i < |s| ==> s[i] == s[1..][i - 1];
    } else {
      var n := DigitPrefix(s);
      DigitRunsShape(s[n..]);
      var runs := DigitRuns(s);
      assert runs == [s[..n]] + DigitRuns(s[n..]);
      assert forall k :: 1 <= k < |runs| ==> runs[k] == DigitRuns(s[n..])[k - 1];
    }
  }

  lemma {:induction false} DigitRunsOfLiteral(d: string)
    requires d != [] && AllDigits(d)
    ensures DigitRuns(d) == [d]
  {
    var n := DigitPrefix(d);
    assert n == |d|;
    assert d[..n] == d;
    assert d[n..] == [];
  }

  lemma DigitRunsSkip(s: string)
    requires s != [] && !IsDigit(s[0])
    ensures DigitRuns(s) == DigitRuns(s[1..])
  {
  }

  lemma DigitRunsTake(s: string)
    requires s != [] && IsDigit(s[0])
    ensures DigitRuns(s) == [s[..DigitPrefix(s)]] + DigitRuns(s[DigitPrefix(s)..])
  {
  }

  /** Digit runs split at a non-digit: the runs of `p + q` are those of `p` then those of `q`. */
  lemma {:induction false} DigitRunsAppend(p: string, q: string)
    requires p == [] || !IsDigit(p[|p| - 1])
    ensures DigitRuns(p + q) == DigitRuns(p) + DigitRuns(q)
    decreases |p|
  {
    if p == [] {
      assert p + q == q;
    } else if !IsDigit(p[0]) {
      DigitRunsAppend(p[1..], q);
      DigitRunsAppendSkip(p, q);
    } else {
      var n := DigitPrefix(p);
      assert n < |p|;
      DigitRunsAppend(p[n..], q);
      DigitRunsAppendTake(p, q);
    }
  }

  /** Digit runs also split before a non-digit: the runs of `p + q`, where `q`
      does not start with a digit, are those of `p` then those of `q`. */
  lemma {:induction false} DigitRunsAppendBefore(p: string, q: string)
    requires q == [] || !IsDigit(q[0])
    ensures DigitRuns(p + q) == DigitRuns(p) + DigitRuns(q)
    decreases |p|
  {
    if p == [] {
      assert p + q == q;
    } else if !IsDigit(p[0]) {
      DigitRunsAppendBefore(p[1..], q);
      DigitRunsAppendSkip(p, q);
    } else if DigitPrefix(p) < |p| {
      DigitRunsAppendBefore(p[DigitPrefix(p)..], q);
      DigitRunsAppendTake(p, q);
    } else {
      DigitRunsAppendLiteral(p, q);
    }
  }

  lemma DigitRunsAppendLiteral(p: string, q: string)
    requires p != [] && AllDigits(p)
    requires q == [] || !IsDigit(q[0])
    ensures DigitRuns(p + q) == DigitRuns(p) + DigitRuns(q)
  {
    var pq := p + q;
    DigitPrefixWhole(p, q);
    DigitRunsOfLiteral(p);
    DigitRunsTake(pq);
    assert pq[..|p|] == p && pq[|p|..] == q;
  }

  lemma {:induction false} DigitPrefixWhole(p: string, q: string)
    requires AllDigits(p)
    requires q == [] || !IsDigit(q[0])
    ensures DigitPrefix(p + q) == |p|
    decreases |p|
  {
    if p == [] {
      assert p + q == q;
    } else {
      assert (p + q)[1..] == p[1..] + q;
      DigitPrefixWhole(p[1..], q);
    }
  }

  lemma DigitRunsAppendSkip(p: string, q: string)
    requires p != [] && !IsDigit(p[0])
    requires DigitRuns(p[1..] + q) == DigitRuns(p[1..]) + DigitRuns(q)
    ensures DigitRuns(p + q) == DigitRuns(p) + DigitRuns(q)
  {
    assert (p + q)[0] == p[0];
    assert (p + q)[1..] == p[1..] + q;
    DigitRunsSkip(p);
    DigitRunsSkip(p + q);
  }

  lemma DigitRunsAppendTake(p: string, q: string)
    requires p != [] && IsDigit(p[0]) && DigitPrefix(p) < |p|
    requires DigitRuns(p[DigitPrefix(p)..] + q) == DigitRuns(p[DigitPrefix(p)..]) + DigitRuns(q)
    ensures DigitRuns(p + q) == DigitRuns(p) + DigitRuns(q)
  {
    var pq := p + q;
    var n := DigitPrefix(p);
    assert pq[0] == p[0];
    DigitPrefixExtend(p, q);
    DigitRunsTake(pq);
    DigitRunsTake(p);
    assert pq[..n] == p[..n];
    assert pq[n..] == p[n..] + q;
    calc {
      DigitRuns(pq);
      [pq[..n]] + DigitRuns(pq[n..]);
      [p[..n]] + DigitRuns(p[n..] + q);
      [p[..n]] + (DigitRuns(p[n..]) + DigitRuns(q));
      ([p[..n]] + DigitRuns(p[n..])) + DigitRuns(q);
    }
  }

  lemma {:induction false} DigitPrefixExtend(p: string, q: string)
    requires DigitPrefix(p) < |p|
    ensures DigitPrefix(p + q) == DigitPrefix(p)
    decreases |p|
  {
    if IsDigit(p[0]) {
      assert (p + q)[1..] == p[1..] + q;
      DigitPrefixExtend(p[1..], q);
    }
  }

  /** Decimal digits of `n`, as Python's `str(n)` prints a non-negative int. */
  function NatToDecimal(n: nat): (d: string)
    ensures d != [] && AllDigits(d)
  {
    if n < 10 then [('0' as int + n) as char] else NatToDecimal(n / 10) + [('0' as int + n % 10) as char]
  }

  /** `str(i)` for an int. */
  function IntText(i: int): string {
    if i < 0 then "-" + NatToDecimal(-i) else NatToDecimal(i)
  }

  lemma {:induction false} DecimalRoundTrip(n: nat)
    ensures DecimalValue(NatToDecimal(n)) == n
  {
    var d := NatToDecimal(n);
    if n >= 10 {
      DecimalRoundTrip(n / 10);
      assert d[..|d| - 1] == NatToDecimal(n / 10);
    }
  }

  /** `x.replace('_', '')`. */
  function DropUnderscores(s: string): (r: string)
    ensures |r| <= |s|
  {
    if s == [] then [] else (if s[0] == '_' then [] else [s[0]]) + DropUnderscores(s[1..])
  }

  /** The digits Python's `int()` accepts after the sign: ASCII digits, with single underscores between them. */
  predicate DigitGroups(s: string) {
    && s != [] && IsDigit(s[0]) && IsDigit(s[|s| - 1])
    && (forall i :: 0 <= i < |s| ==> IsDigit(s[i]) || s[i] == '_')
    && (forall i :: 0 <= i < |s| - 1 && s[i] == '_' ==> s[i + 1] != '_')
  }

  lemma {:induction false} DropUnderscoresDigits(s: string)
    requires forall i :: 0 <= i < |s| ==> IsDigit(s[i]) || s[i] == '_'
    ensures AllDigits(DropUnderscores(s))
  {
    if s != [] {
      DropUnderscoresDigits(s[1..]);
    }
  }

  lemma {:induction false} DropUnderscoresOfDigits(s: string)
    requires AllDigits(s)
    ensures DropUnderscores(s) == s
  {
    if s != [] {
      DropUnderscoresOfDigits(s[1..]);
    }
  }

  function Magnitude(s: string): Option<nat> {
    if DigitGroups(s) then
      DropUnderscoresDigits(s);
      Some(DecimalValue(DropUnderscores(s)))
    else None
  }

  /** `int()` on a text already stripped: one optional sign, then the digits. */
  function SignedInt(t: string): (r: Option<int>)
    ensures r.Some? ==> exists i :: 0 <= i < |t| && IsDigit(t[i])
  {
    var sign := if t != [] && (t[0] == '-' || t[0] == '+') then 1 else 0;
    match Magnitude(t[sign..])
    case None => None
    case Some(m) =>
      assert IsDigit(t[sign..][0]) && t[sign] == t[sign..][0];
      var v: int := if sign == 1 && t[0] == '-' then -(m as int) else m;
      Some(v)
  }

  /** Python's `int(s)` on a string in base 10: surrounding whitespace is ignored,
      one optional sign, then digits; anything else raises, modelled as None. */
  function PyInt(s: string): (r: Option<int>)
    ensures r.Some? ==> exists i :: 0 <= i < |s| && IsDigit(s[i])
  {
    var t := Strip(s);
    var r := SignedInt(t);
    if r.None? then r
    else
      assert exists i :: 0 <= i < |s| && IsDigit(s[i]) by {
        var k :| 0 <= k < |t| && IsDigit(t[k]);
        var i := StripIndex(s, k);
      }
      r
  }

  /** `int(str(i)) == i`. */
  lemma IntTextRoundTrip(i: int)
    ensures PyInt(IntText(i)) == Some(i)
  {
    var m: nat := if i < 0 then -i else i;
    var d := NatToDecimal(m);
    var t := IntText(i);
    assert t[0] == '-' || IsDigit(t[0]);
    assert IsDigit(t[|t| - 1]);
    StripOfTrimmed(t);
    var sign := if i < 0 then 1 else 0;
    assert t[sign..] == d;
    MagnitudeOfDecimal(m);
  }

  /** `int()` ignores whitespace around the text: `int(a + str(i) + b) == i`
      whenever `a` and `b` are all whitespace. */
  lemma PyIntOfPadded(a: string, i: int, b: string)
    requires forall k :: 0 <= k < |a| ==> IsSpace(a[k])
    requires forall k :: 0 <= k < |b| ==> IsSpace(b[k])
    ensures PyInt(a + IntText(i) + b) == Some(i)
  {
    var t := IntText(i);
    var m: nat := if i < 0 then -i else i;
    assert AllDigits(NatToDecimal(m));
    assert t[0] == '-' || IsDigit(t[0]);
    assert IsDigit(t[|t| - 1]);
    StripOfPadded(a, t, b);
    StripOfTrimmed(t);
    IntTextRoundTrip(i);
  }


  /** `strip()` removes exactly the whitespace padding around a trimmed text. */
  lemma StripOfPadded(a: string, t: string, b: string)
    requires t != [] && !IsSpace(t[0]) && !IsSpace(t[|t| - 1])
    requires forall k :: 0 <= k < |a| ==> IsSpace(a[k])
    requires forall k :: 0 <= k < |b| ==> IsSpace(b[k])
    ensures Strip(a + t + b) == t
  {
    var s := a + t + b;
    var lo, hi := |a|, |a| + |t|;
    assert s[lo] == t[0] && s[hi - 1] == t[|t| - 1];
    var i := LeadingSpaces(s);
    assert i == lo;
    var j := ContentEnd(s, i);
    assert j == hi;
    assert s[lo..hi] == t;
  }

  lemma MagnitudeOfDecimal(m: nat)
    ensures Magnitude(NatToDecimal(m)) == Some(m)
  {
    var d := NatToDecimal(m);
    assert DigitGroups(d);
    DropUnderscoresOfDigits(d);
    DecimalRoundTrip(m);
  }

  lemma StripOfTrimmed(t: string)
    requires t != [] && !IsSpace(t[0]) && !IsSpace(t[|t| - 1])
    ensures Strip(t) == t
  {
    assert LeadingSpaces(t) == 0;
    assert ContentEnd(t, 0) == |t|;
  }

  /** `str(i)` never contains an underscore, which is what keeps error keys unambiguous. */
  lemma IntTextHasNoUnderscore(i: int)
    ensures '_' !in IntText(i)
  {
    var m: nat := if i < 0 then -i else i;
    assert AllDigits(NatToDecimal(m));
  }

  lemma IntTextInjective(a: int, b: int)
    requires IntText(a) == IntText(b)
    ensures a == b
  {
    IntTextRoundTrip(a);
    IntTextRoundTrip(b);
  }
}
